=== FILE: README.md ===
# FRTU record tool — a Dafny model of its data core

The tool keeps records of Feeder Remote Terminal Units (FRTUs), the field devices of a power
distribution network. Technicians create, edit and delete device records and change their
status. Every change writes an entry to an audit log, newest first, and the entry is posted
to a spreadsheet mirror. The log can be exported as a CSV report. A technician directory is
read from the spreadsheet, with a cached and a built-in fallback.

This project models that core as pure functions:

- `types.dfy` (`Types`): the status and action enums with their string values, the device
  record, the log entry and the three seed devices.
- `storage_service.dfy` (`StorageService`): the browser store. Local storage is a value with
  three optional slots, and an absent slot is a missing key. It covers reads that seed on
  first use, save, delete and status change (each writing one log entry), the directory
  fallback, and the CSV export.
- `csv.dfy` (`Csv`): the CSV format the export writes, an independent reader for it, and the
  proof that reading what was written returns the values.
- `app.dfy` (`App`): the page logic. It has the save/delete/status handlers, the device
  search and status filter, the dashboard's unfiltered data, status tallies, the
  ten-entry recent-activity cut and the relative-time labels.
- `http.dfy` (`Http`) and `spreadsheet.dfy` (`Spreadsheet`): what the two serverless
  endpoints share. That is the environment, the private-key unescaping, the JSON responses,
  and a document of titled, numbered sheets whose rows are header-keyed cells.
- `log_to_sheet.dfy` (`LogToSheet`): the append endpoint. It covers method and credential
  gating, the choice of sheet, the row built from the posted entry, and the errors.
- `get_employees.dfy` (`EmployeeDirectory`): the directory endpoint. It covers credential
  gating, the staff sheet lookup, the non-blank name filter, and how the browser takes the
  answer.
- `optional.dfy`, `strings.dfy` and `lists.dfy` are helpers. They hold `Option`/`Fallible`,
  `includes`/`join`/`trim`, number rendering, and `filter` with subsequence facts.

Values the program takes from its surroundings become parameters:

- the log id and ISO time of a mutation (`Stamp`);
- the outcome of a directory fetch;
- the document the spreadsheet service loads, and errors thrown by its calls;
- the server's clock reading;
- the date formatter used by the report;
- `toLowerCase` (`lower`) and the dashboard's date-range test (`inRange`).

## Model

| member | source | states |
|---|---|---|
| `Types.StatusFromName` | types.ts:2-7 | Only the four status values name a status, and each names exactly one, whose value it is |
| `Types.StatusEnumeration` | types.ts:2-7 | The status enum has exactly four members with pairwise distinct values |
| `Types.ActionEnumeration` | types.ts:9-15 | Five actions with distinct, non-empty values that hold no double quote, so the report never needs to escape them |
| `Types.ActionNameNamesOne` | types.ts:9-15 | Two actions with the same value are the same action |
| `Types.InitialFrtusWellFormed` | types.ts:44-90 | The seed has three devices with ids 1, 2, 3 (distinct), every field the device form requires filled (serial, substation, feeder, location, technician, last maintenance date), statuses Online, Offline, Initializing |
| `StorageService.GetFrtus` | services/storageService.ts:37-44 | An absent device key is seeded with the sample devices, which are returned; otherwise the stored list is returned and nothing changes; afterwards the key holds what was returned |
| `StorageService.GetFrtusStable` | services/storageService.ts:37-44 | Seeding happens once: reading again returns the same list and store |
| `StorageService.GetLogs` | services/storageService.ts:46-49 | An absent log key reads as the empty log, otherwise the stored log |
| `StorageService.SaveLog` | services/storageService.ts:23-34 | The new entry is put in front of the existing log and posted to the mirror; devices and directory are untouched |
| `StorageService.ReplaceById` | services/storageService.ts:83 | Same length and ids; every device with the saved id becomes the saved device, all others stay; with no match the list is unchanged |
| `StorageService.SaveDetails` | services/storageService.ts:94 | The save details text names the serial |
| `StorageService.SaveFrtu` | services/storageService.ts:76-108 | New: appended at the end; otherwise replaced by id. Exactly one entry is logged, Create or Update, carrying id, serial, officer, stamp and a snapshot of the device, with details naming the serial |
| `StorageService.WithoutId` | services/storageService.ts:112 | Exactly the devices with another id remain, in order and each as often as it was listed; a list without that id is unchanged |
| `StorageService.DeleteDetails` | services/storageService.ts:119 | The delete details text ends with the deleted serial |
| `StorageService.DeleteFrtu` | services/storageService.ts:110-125 | Devices with the id are removed; one Delete entry is logged with the given id and serial, details naming the serial, and no snapshot |
| `StorageService.FindById` | services/storageService.ts:129 | The first position holding the id, or none exactly when no device has it |
| `StorageService.SetStatusById` | services/storageService.ts:133 | Same length and ids; devices with the id change only their status; others stay |
| `StorageService.StatusDetails` | services/storageService.ts:141 | The status-change details name both the old and the new status |
| `StorageService.UpdateStatus` | services/storageService.ts:127-146 | Unknown id: nothing logged and devices unchanged (beyond the first-read seed). Otherwise the status is set and one StatusChange entry is logged with the first match's serial and its old and new status |
| `StorageService.GetEmployees` | services/storageService.ts:51-74 | A successful non-empty array is cached and returned; otherwise the cache, or else the built-in list (then cached); the cache afterwards holds what was returned |
| `StorageService.DirectoryFallsBackToLastSuccess` | services/storageService.ts:51-74 | After a usable fetch, a failing one returns the names that last succeeded |
| `StorageService.DirectoryNeverEmpty` | services/storageService.ts:14-20 | The directory returned and cached is never empty when the cache never held an empty list |
| `StorageService.ExportToCsv` | services/storageService.ts:151-174 | No logs, no report; otherwise the text starts with the byte-order mark |
| `StorageService.CsvRow` | services/storageService.ts:160-167 | The line holds the formatted date, the officer and the serial between quotes exactly as they are, with no quote doubled, and the details between quotes with their quotes doubled |
| `StorageService.CsvRowIsRecord` | services/storageService.ts:160-167 | With quote-free date, officer and serial, each report line is the standard CSV encoding of the entry's seven cells |
| `StorageService.ExportReadsBack` | services/storageService.ts:151-174 | The report after the mark reads back as the header and one record per entry in log order, each with the entry's values (quotes in details and annotations included), given quote-free date, officer and serial |
| `StorageService.QuotedSerialBreaksReport` | services/storageService.ts:167 | As written, a newest entry with serial `A"B` makes the whole report unreadable as CSV |
| `StorageService.CsvRowEscapedIsRecord` | services/storageService.ts:160-167 | With every cell's quotes doubled, a report line is the standard CSV encoding of the entry's seven cells, whatever they hold |
| `StorageService.ExportToCsvEscaped` | services/storageService.ts:151-174 | With every cell escaped, the report reads back as header and entries for any log content |
| `Csv.DocumentRoundTrip` | services/storageService.ts:158-169 | Reading an encoded document of non-empty records gives back every field value, record by record |
| `Csv.RecordRoundTrip` | services/storageService.ts:159-167 | Reading an encoded record gives back its field values and stops at the line end |
| `Csv.QuotedRoundTrip` | services/storageService.ts:164-166 | Doubling quotes and enclosing in quotes is undone exactly by the quoted-field reader |
| `Csv.EscapeQuotes` | services/storageService.ts:164-166 | Escaping never shortens a text and leaves quote-free text unchanged |
| `App.IsNewDevice` | App.tsx:292 | A device is new exactly when no listed device has its id |
| `App.HandleSave` | App.tsx:291-298 | A new device is appended after the listed ones; otherwise it replaces every device with its id and the others stay in place; the saved device is then listed, ids stay distinct, and one Create/Update entry is logged |
| `App.HandleDelete` | App.tsx:300-306 | Without confirmation nothing happens; with it no device keeps the id, every other device stays in order and as often as it was listed, ids stay distinct, and one entry is logged |
| `App.SubsequenceKeepsUniqueIds` | services/storageService.ts:112 | Removing devices keeps ids distinct and adds no device |
| `App.SecondDeleteRemovesNothing` | services/storageService.ts:110-125 | Deleting the same id again leaves the devices as they are but still logs an entry |
| `App.HandleStatusChange` | App.tsx:308-312 | Devices with the id take the new status and every other device is unchanged; an entry is logged exactly when the id is listed, and otherwise the store is only what the read left |
| `App.SeedThenCreate` | App.tsx:291-298 | On a fresh store, saving a device with a new id gives four devices and a newest Create entry with its serial |
| `App.FilteredFrtus` | App.tsx:314-319 | Shown devices are those matching search and status, in list order, each as often as it is listed; a chosen status is the status of all shown; an unknown menu value shows none; empty search with ALL shows all |
| `App.GetFilteredData` | App.tsx:105-126 | Without dates, the full lists; with a date, exactly the devices and entries in range, in order and with their repeats |
| `App.ComputeStats` | App.tsx:130-136 | Total is the number of devices; each count is that status's count; the four counts sum to the total |
| `App.StatusCountsPartition` | App.tsx:130-136 | Per-status counts of any device list add up to its length |
| `App.RecentActivity` | App.tsx:249 | The first ten entries, or all when fewer |
| `App.NewestEntryShownFirst` | App.tsx:249 | After a logged change the panel shows the new entry first, then the former panel less its last entry when full |
| `App.SecondsElapsed` | App.tsx:149 | Floor of milliseconds over 1000, also for a negative difference |
| `App.GetRelativeTime` | App.tsx:146-155 | Under 60 s just now, under an hour whole minutes (1-59), under a day whole hours (1-23), else the locale date; each count is the whole units elapsed |
| `App.RenderRelativeTime` | App.tsx:151-154 | "Just now" has its fixed text, a date label is the locale date, and a minute or hour label is the count in shortest decimal (no leading zero) then the unit's words, and its digits read back as the count |
| `App.MinuteLabelsDistinct` | App.tsx:152 | Different minute counts render different labels |
| `Http.DecodePrivateKey` | api/log-to-sheet.ts:19 | A key without backslashes is unchanged; no backslash-n remains; a key in escaped form (no newline, each backslash starting a backslash-n) decodes to the text whose newlines escape back to it, so every pair became a newline and nothing else changed |
| `Http.DecodeUndoesEscape` | api/get-employees.ts:16 | Unescaping a backslash-free key whose newlines were written as backslash-n gives the key back |
| `Http.DocumentId` | api/log-to-sheet.ts:24 | The configured document id when set, otherwise a non-empty default |
| `Spreadsheet.AddRow` | api/log-to-sheet.ts:37-48 | The values under the chosen sheet's column headers are added below its rows, and values under any other key are dropped; other sheets, and the sheet's id, title and header row, are unchanged |
| `LogToSheet.BodyOf` | services/storageService.ts:28-33 | The posted body carries the officer, serial and details as they are and the action and status as values that each name exactly one member; save entries add their device fields, other entries carry none |
| `LogToSheet.ChooseSheet` | api/log-to-sheet.ts:28-31 | The sheet titled "database" if there is one, else the first sheet, else none |
| `LogToSheet.HeaderCells` | api/log-to-sheet.ts:38-48 | The object passed to `addRow` holds each of the row's cells under its own column header, so reading it by header gives the row back |
| `LogToSheet.StoredRowReadsBack` | api/log-to-sheet.ts:37-48 | The row the sheet keeps reads back by header as the built row exactly when the sheet's header row has all nine columns |
| `LogToSheet.HeaderCellsColumns` | api/log-to-sheet.ts:38-48 | The keys are exactly the nine column headers |
| `LogToSheet.RowFor` | api/log-to-sheet.ts:38-48 | The server time under Timestamp; each of the eight other columns holds its body field when truthy, else a dash, so none is empty |
| `LogToSheet.RowRoundTrip` | api/log-to-sheet.ts:39-47 | Reading the row back recovers every field that was set, non-empty and not a dash; absent, empty and dash collapse |
| `LogToSheet.Handle` | api/log-to-sheet.ts:5-55 | 405 for non-POST; 500 without credentials; 500 with the thrown message on a load or append error or when there is no sheet; 200 exactly otherwise, with the row's values under the chosen sheet's headers appended to it |
| `LogToSheet.SuccessAddsOneRow` | api/log-to-sheet.ts:38-50 | A successful call grows the document by exactly one row |
| `LogToSheet.SavedDeviceReachesSheet` | services/storageService.ts:88-107 | A save's mirror row carries the device's status, annotations and serial, the action and the officer |
| `LogToSheet.NonSaveRowsHaveNoDeviceData` | api/log-to-sheet.ts:44-47 | Entries without device fields get a dash under event, PHOS, PHBO and status |
| `EmployeeDirectory.NonBlankNames` | api/get-employees.ts:36-38 | A name is sent exactly when a row holds it and it has a non-space character, as many times as rows hold it; names are sent untrimmed |
| `EmployeeDirectory.NamesKeepSheetOrder` | api/get-employees.ts:36-38 | The names keep the rows' order |
| `EmployeeDirectory.NonBlankNamesIdempotent` | api/get-employees.ts:36-38 | Filtering the sent list again changes nothing |
| `EmployeeDirectory.Handle` | api/get-employees.ts:5-44 | No credentials: 200 with an empty list; load or row errors: 500 with that error's message; no sheet 277093410: 404; otherwise 200 with the staff sheet's non-blank names |
| `EmployeeDirectory.ClientAdoptsOnlyListedNames` | services/storageService.ts:51-62 | The browser adopts the server's list exactly when it holds a name, and then only non-blank names; without credentials it keeps its cache or the built-in list |
| `Strings.NatToStringRoundTrip` | App.tsx:152-153 | The decimal rendering of a count reads back as that count |
| `Strings.TrimEmptyIffBlank` | api/get-employees.ts:38 | A string trims to empty exactly when it is all white space |
| `Lists.Filter` | App.tsx:314 | Filtering keeps exactly the elements that pass, each as many times as it occurs, and drops the others |
| `Lists.FilterIsSubsequence` | App.tsx:314 | Filtering keeps the original order |

## Left out

- Persistence is modelled as the decoded values. JSON encoding, `JSON.parse` failures on
  corrupted storage, and quota errors are not modelled.
- The posted mirror entry is returned (`Mutation.posted`), not sent. The network, its
  failure (caught and only logged) and its asynchrony are not modelled.
- `Date.now()`, `toISOString`, `toLocaleString` and `toLocaleDateString` are inputs. So is
  the report's date text, including its `replace(',', '')`.
- `App.GetFilteredData`: the comparison against the start and end dates, with its defaults
  and end-of-day adjustment, is the parameter `inRange`. The date parsing depends on the
  time zone.
- `App.FilteredFrtus`: `toLowerCase` is the parameter `lower`. The empty-search result is
  stated only for a `lower` that maps "" to "".
- `App.HandleSave`: the page decides whether a device is new from its last-read list. The
  model uses the store's list, which is the same list after the page's refresh.
- Blob and object-URL creation in `exportToCSV` are left out. The model stops at the text.
- `Spreadsheet.AddRow`: on a sheet whose header row is empty the library throws instead of
  adding a row. The model does not derive that error from the sheet. It is one of the
  errors the handler's `addRowError` input stands for, and its message is the library's.
- Authentication (JWT), the spreadsheet library's HTTP traffic, `console` output and Vercel's
  request parsing are left out. A posted body is taken to be a JSON object whose fields are
  strings or absent.
- React rendering, toasts, modals, charts and components are left out. The confirm dialog is
  a boolean input.
- `getGoogleSheetUrl` and `getEmployeeSheetUrl` return constants, and nothing depends on
  them.

Behaviour the model keeps as the code has it:

- The directory endpoint sends the names exactly as written, without trimming them, and it
  reads every row of sheet 277093410.
- The report escapes quotes only in details, PHOS and PHBO (see Findings).
- `updateStatus` on an unknown id still seeds the device list on first use, because it reads
  it first.

## Findings

| source | as written | input that shows it | evidently intended | confidence | as-written member | corrected member |
|---|---|---|---|---|---|---|
| services/storageService.ts:167 | date, officer and serial are put between quotes without doubling quotes they contain | a newest log entry with serial `A"B`: its cell ends after `A` and the line can no longer be read | every free-text cell has its quotes doubled, as done for details, PHOS and PHBO | medium, not executed | `StorageService.QuotedSerialBreaksReport` | `StorageService.ExportToCsvEscaped` |

=== FILE: app.dfy ===
/** The logic of the pages in App.tsx, without the rendering: the device page's handlers and
    search/status filter, and the dashboard's unfiltered data, status tallies, recent-activity
    cut and relative-time labels. */
module App {
  import opened Optional
  import opened Strings
  import opened Lists
  import opened Types
  import opened StorageService

  /** The officer name the device page passes to every mutation. */
  const PageOfficer: string := "จนท. ทดสอบ"

  // ---------------------------------------------------------------------------------------
  // Device page handlers. The page's device list is the one the store returns (the page
  // re-reads it after every mutation).

  /** `handleSave`'s test: a device is new exactly when no listed device has its id. */
  function IsNewDevice(devices: seq<Frtu>, device: Frtu): (r: bool)
    ensures r <==> forall i :: 0 <= i < |devices| ==> devices[i].id != device.id
  {
    FindById(devices, device.id).None?
  }

  /** `handleSave`: saves the device, as new exactly when its id is not listed. A new device
      is appended after the listed ones; otherwise it takes the place of every device with
      its id and the others stay where they were. The saved device is in the list
      afterwards, and a list with distinct ids keeps distinct ids, so afterwards the saved
      device is the only one with its id. */
  function HandleSave(st: Storage, device: Frtu, stamp: Stamp): (m: Mutation)
    ensures var before := GetFrtus(st).value;
      && m.store.frtuSlot.Some?
      && |m.store.frtuSlot.value| == |before| + (if IsNewDevice(before, device) then 1 else 0)
      && device in m.store.frtuSlot.value
      && (UniqueIds(before) ==> UniqueIds(m.store.frtuSlot.value))
    ensures IsNewDevice(GetFrtus(st).value, device) ==> m.store.frtuSlot == Some(GetFrtus(st).value + [device])
    ensures !IsNewDevice(GetFrtus(st).value, device) ==>
      forall i :: 0 <= i < |GetFrtus(st).value| ==>
        m.store.frtuSlot.value[i] == (if GetFrtus(st).value[i].id == device.id then device else GetFrtus(st).value[i])
    ensures LoggedOnce(st, m)
    ensures m.posted.value.action == (if IsNewDevice(GetFrtus(st).value, device) then Create else Update)
  {
    var before := GetFrtus(st).value;
    var isNew := IsNewDevice(before, device);
    if isNew then
      AppendKeepsUniqueIds(before, device);
      SaveFrtu(st, device, isNew, PageOfficer, stamp)
    else
      ReplaceKeepsUniqueIds(before, device);
      SaveFrtu(st, device, isNew, PageOfficer, stamp)
  }

  /** Appending a device whose id is not listed: one more device, the device among them,
      and distinct ids stay distinct. */
  lemma AppendKeepsUniqueIds(before: seq<Frtu>, device: Frtu)
    requires IsNewDevice(before, device)
    ensures |before + [device]| == |before| + 1
    ensures device in before + [device]
    ensures UniqueIds(before) ==> UniqueIds(before + [device])
  {
    assert (before + [device])[|before|] == device;
  }

  /** Replacing the device with a listed id: as many devices, the device among them, and
      distinct ids stay distinct. */
  lemma ReplaceKeepsUniqueIds(before: seq<Frtu>, device: Frtu)
    requires !IsNewDevice(before, device)
    ensures |ReplaceById(before, device)| == |before|
    ensures device in ReplaceById(before, device)
    ensures UniqueIds(before) ==> UniqueIds(ReplaceById(before, device))
  {
    var after := ReplaceById(before, device);
    var k := FindById(before, device.id).value;
    assert after[k] == device;
    assert Ids(after) == Ids(before);
  }

  /** `handleDelete`: only after the user confirms, deletes the device. Afterwards no device
      has the id, every other device is still there, in order and as often as before, ids
      stay distinct, and one entry is logged; without confirmation nothing happens. */
  function HandleDelete(st: Storage, id: string, serial: string, confirmed: bool, stamp: Stamp): (m: Mutation)
    ensures !confirmed ==> m == Mutation(st, None)
    ensures confirmed ==> m.store.frtuSlot.Some? && LoggedOnce(st, m)
    ensures confirmed ==> forall f :: f in m.store.frtuSlot.value ==> f.id != id
    ensures confirmed && UniqueIds(GetFrtus(st).value) ==> UniqueIds(m.store.frtuSlot.value)
    ensures confirmed ==> IsSubsequence(m.store.frtuSlot.value, GetFrtus(st).value)
    ensures confirmed ==>
      forall f :: multiset(m.store.frtuSlot.value)[f] == if f.id != id then multiset(GetFrtus(st).value)[f] else 0
  {
    if !confirmed then Mutation(st, None)
    else
      var before := GetFrtus(st).value;
      var m := DeleteFrtu(st, id, serial, PageOfficer, stamp);
      var after := WithoutId(before, id);
      assert m.store.frtuSlot == Some(after);
      if UniqueIds(before) then
        SubsequenceKeepsUniqueIds(after, before);
        m
      else
        m
  }

  /** Removing devices never makes two ids equal. */
  lemma {:induction false} SubsequenceKeepsUniqueIds(a: seq<Frtu>, b: seq<Frtu>)
    requires IsSubsequence(a, b) && UniqueIds(b)
    ensures UniqueIds(a)
    ensures forall f :: f in a ==> f in b
    decreases |b|
  {
    if |a| > 0 {
      assert |b| > 0;
      if a[0] == b[0] && IsSubsequence(a[1..], b[1..]) {
        SubsequenceKeepsUniqueIds(a[1..], b[1..]);
        forall j | 0 < j < |a|
          ensures a[0].id != a[j].id
        {
          assert a[j] == a[1..][j - 1];
          assert a[j] in a[1..];
          var k :| 0 <= k < |b[1..]| && b[1..][k] == a[j];
          assert b[k + 1] == a[j];
        }
        forall i, j | 0 <= i < j < |a|
          ensures a[i].id != a[j].id
        {
          if i > 0 {
            assert a[i] == a[1..][i - 1] && a[j] == a[1..][j - 1];
          }
        }
        forall f | f in a
          ensures f in b
        {
          if f != a[0] {
            assert f in a[1..];
          }
        }
      } else {
        SubsequenceKeepsUniqueIds(a, b[1..]);
      }
    }
  }

  /** Deleting the same id twice: the second delete removes nothing but still logs. */
  lemma SecondDeleteRemovesNothing(st: Storage, id: string, serial: string, s1: Stamp, s2: Stamp)
    ensures var first := DeleteFrtu(st, id, serial, PageOfficer, s1);
      var second := DeleteFrtu(first.store, id, serial, PageOfficer, s2);
      second.store.frtuSlot == first.store.frtuSlot && LoggedOnce(first.store, second)
  {
    var first := DeleteFrtu(st, id, serial, PageOfficer, s1);
    var after := first.store.frtuSlot.value;
    assert forall i :: 0 <= i < |after| ==> after[i].id != id by {
      forall i | 0 <= i < |after|
        ensures after[i].id != id
      {
        assert after[i] in after;
      }
    }
  }

  /** `handleStatusChange`: when a device has the id, every device with it takes the new
      status, all other devices stay as they were, and one entry is logged; otherwise nothing
      is logged and nothing is written beyond what the read left. Ids stay as they were. */
  function HandleStatusChange(st: Storage, id: string, status: FrtuStatus, stamp: Stamp): (m: Mutation)
    ensures m.store.frtuSlot.Some?
    ensures Ids(m.store.frtuSlot.value) == Ids(GetFrtus(st).value)
    ensures UniqueIds(GetFrtus(st).value) ==> UniqueIds(m.store.frtuSlot.value)
    ensures m.posted.Some? <==> id in Ids(GetFrtus(st).value)
    ensures m.posted.Some? ==> LoggedOnce(st, m)
    ensures forall f :: f in m.store.frtuSlot.value && f.id == id ==> f.status == status
    ensures |m.store.frtuSlot.value| == |GetFrtus(st).value|
    ensures forall i :: 0 <= i < |GetFrtus(st).value| ==>
      m.store.frtuSlot.value[i]
      == (if GetFrtus(st).value[i].id == id then GetFrtus(st).value[i].(status := status) else GetFrtus(st).value[i])
    ensures m.posted.None? ==> m.store == GetFrtus(st).store
  {
    var before := GetFrtus(st).value;
    var m := UpdateStatus(st, id, status, PageOfficer, stamp);
    assert id in Ids(before) <==> FindById(before, id).Some? by {
      if id in Ids(before) {
        var i :| 0 <= i < |Ids(before)| && Ids(before)[i] == id;
        assert before[i].id == id;
      }
    }
    m
  }

  /** The first run: the store seeds the three sample devices, so saving a device with a
      fresh id gives four devices and a newest log entry tagged Create with its serial. */
  lemma SeedThenCreate(device: Frtu, stamp: Stamp)
    requires device.id != "1" && device.id != "2" && device.id != "3"
    ensures var m := HandleSave(Storage(None, None, None), device, stamp);
      && |m.store.frtuSlot.value| == 4
      && GetLogs(m.store)[0].action == Create
      && GetLogs(m.store)[0].frtuSerial == device.serialNumber
  {
    InitialFrtusWellFormed();
    assert IsNewDevice(InitialFrtus, device) by {
      assert Ids(InitialFrtus) == ["1", "2", "3"];
    }
  }

  // ---------------------------------------------------------------------------------------
  // Device page filter

  /** The search box: the term, lower-cased, occurs in the lower-cased serial or substation.
      `lower` stands for `toLowerCase`. */
  predicate MatchesSearch(f: Frtu, searchTerm: string, lower: string -> string) {
    Contains(lower(f.serialNumber), lower(searchTerm)) || Contains(lower(f.substation), lower(searchTerm))
  }

  /** The status menu: "ALL", or the value of the status to show. */
  predicate MatchesStatus(f: Frtu, statusFilter: string) {
    statusFilter == "ALL" || StatusName(f.status) == statusFilter
  }

  /** A device the list shows: it matches both the search and the status menu. */
  predicate Shown(f: Frtu, searchTerm: string, statusFilter: string, lower: string -> string) {
    MatchesSearch(f, searchTerm, lower) && MatchesStatus(f, statusFilter)
  }

  /** `filteredFrtus`: the devices matching both the search and the status menu, in list
      order and each as often as it is listed. With a status chosen every shown device has
      it; a menu value that is neither "ALL" nor a status shows nothing; an empty search
      with "ALL" shows every device. */
  function FilteredFrtus(frtus: seq<Frtu>, searchTerm: string, statusFilter: string, lower: string -> string): (r: seq<Frtu>)
    ensures IsSubsequence(r, frtus)
    ensures forall f :: f in r <==> f in frtus && Shown(f, searchTerm, statusFilter, lower)
    ensures forall f :: multiset(r)[f] == if Shown(f, searchTerm, statusFilter, lower) then multiset(frtus)[f] else 0
    ensures statusFilter != "ALL" ==> forall i :: 0 <= i < |r| ==> StatusName(r[i].status) == statusFilter
    ensures statusFilter != "ALL" && StatusFromName(statusFilter).None? ==> r == []
    ensures searchTerm == "" && statusFilter == "ALL" && lower("") == "" ==> r == frtus
  {
    var keep := (f: Frtu) => Shown(f, searchTerm, statusFilter, lower);
    var r := Filter(keep, frtus);
    FilterIsSubsequence(keep, frtus);
    UnknownStatusShowsNothing(r, searchTerm, statusFilter, lower);
    assert searchTerm == "" && statusFilter == "ALL" && lower("") == "" ==> r == frtus by {
      if searchTerm == "" && statusFilter == "ALL" && lower("") == "" {
        EmptySearchShowsAll(frtus, lower);
        FilterKeepsAll(keep, frtus);
      }
    }
    r
  }

  /** With an empty search and "ALL", every device is shown. */
  lemma EmptySearchShowsAll(frtus: seq<Frtu>, lower: string -> string)
    requires lower("") == ""
    ensures forall i :: 0 <= i < |frtus| ==> Shown(frtus[i], "", "ALL", lower)
  {
    forall i | 0 <= i < |frtus|
      ensures Shown(frtus[i], "", "ALL", lower)
    {
      ContainsEmpty(lower(frtus[i].serialNumber));
    }
  }

  /** Devices are shown under a menu value other than "ALL" only when it names a status. */
  lemma UnknownStatusShowsNothing(r: seq<Frtu>, searchTerm: string, statusFilter: string, lower: string -> string)
    requires forall i :: 0 <= i < |r| ==> Shown(r[i], searchTerm, statusFilter, lower)
    ensures statusFilter != "ALL" && |r| > 0 ==> StatusFromName(statusFilter).Some?
  {
    if statusFilter != "ALL" && |r| > 0 {
      assert Shown(r[0], searchTerm, statusFilter, lower);
    }
  }

  // ---------------------------------------------------------------------------------------
  // Dashboard

  /** The dashboard's device and log lists. */
  datatype Display = Display(devices: seq<Frtu>, logs: seq<HistoryLog>)

  /** `getFilteredData`: with neither date set, the full lists; otherwise the devices whose
      last maintenance date and the entries whose timestamp fall in the chosen range, in
      order, each as often as it is listed. `inRange` stands for the date comparison, which
      depends on the time zone. */
  function GetFilteredData(frtus: seq<Frtu>, logs: seq<HistoryLog>, startDate: string, endDate: string,
                           inRange: string -> bool): (r: Display)
    ensures startDate == "" && endDate == "" ==> r == Display(frtus, logs)
    ensures IsSubsequence(r.devices, frtus) && IsSubsequence(r.logs, logs)
    ensures startDate != "" || endDate != "" ==>
      && (forall f :: f in r.devices <==> f in frtus && inRange(f.lastMaintenance))
      && (forall l :: l in r.logs <==> l in logs && inRange(l.timestamp))
      && (forall f :: multiset(r.devices)[f] == if inRange(f.lastMaintenance) then multiset(frtus)[f] else 0)
      && (forall l :: multiset(r.logs)[l] == if inRange(l.timestamp) then multiset(logs)[l] else 0)
  {
    if startDate == "" && endDate == "" then
      SubsequenceReflexive(frtus);
      SubsequenceReflexive(logs);
      Display(frtus, logs)
    else
      Display(InRangeDevices(frtus, inRange), InRangeLogs(logs, inRange))
  }

  /** The devices whose last maintenance date is in range, in order and with their repeats. */
  function InRangeDevices(frtus: seq<Frtu>, inRange: string -> bool): (r: seq<Frtu>)
    ensures IsSubsequence(r, frtus)
    ensures forall f :: f in r <==> f in frtus && inRange(f.lastMaintenance)
    ensures forall f :: multiset(r)[f] == if inRange(f.lastMaintenance) then multiset(frtus)[f] else 0
  {
    var keep := (f: Frtu) => inRange(f.lastMaintenance);
    FilterIsSubsequence(keep, frtus);
    Filter(keep, frtus)
  }

  /** The entries whose timestamp is in range, in order and with their repeats. */
  function InRangeLogs(logs: seq<HistoryLog>, inRange: string -> bool): (r: seq<HistoryLog>)
    ensures IsSubsequence(r, logs)
    ensures forall l :: l in r <==> l in logs && inRange(l.timestamp)
    ensures forall l :: multiset(r)[l] == if inRange(l.timestamp) then multiset(logs)[l] else 0
  {
    var keep := (l: HistoryLog) => inRange(l.timestamp);
    FilterIsSubsequence(keep, logs);
    Filter(keep, logs)
  }

  /** The dashboard tallies. */
  datatype Stats = Stats(total: nat, online: nat, offline: nat, initializing: nat, connecting: nat)

  /** `displayFrtus.filter(f => f.status === s).length`. */
  function CountStatus(devices: seq<Frtu>, s: FrtuStatus): nat {
    |Filter((f: Frtu) => f.status == s, devices)|
  }

  /** `stats`: the total and one count per status. Every device has one of the four
      statuses, so the four counts add up to the total. */
  function ComputeStats(devices: seq<Frtu>): (r: Stats)
    ensures r.total == |devices|
    ensures r.online + r.offline + r.initializing + r.connecting == r.total
    ensures r.online == CountStatus(devices, Online) && r.offline == CountStatus(devices, Offline)
    ensures r.initializing == CountStatus(devices, Initializing) && r.connecting == CountStatus(devices, Connecting)
  {
    StatusCountsPartition(devices);
    Stats(|devices|, CountStatus(devices, Online), CountStatus(devices, Offline),
          CountStatus(devices, Initializing), CountStatus(devices, Connecting))
  }

  lemma {:induction false} StatusCountsPartition(devices: seq<Frtu>)
    ensures CountStatus(devices, Online) + CountStatus(devices, Offline)
          + CountStatus(devices, Initializing) + CountStatus(devices, Connecting) == |devices|
    decreases |devices|
  {
    if |devices| > 0 {
      StatusCountsPartition(devices[1..]);
      CountStatusCons(devices, Online);
      CountStatusCons(devices, Offline);
      CountStatusCons(devices, Initializing);
      CountStatusCons(devices, Connecting);
    }
  }

  /** The first device adds one to the count of its own status only. */
  lemma CountStatusCons(devices: seq<Frtu>, s: FrtuStatus)
    requires |devices| > 0
    ensures CountStatus(devices, s) == (if devices[0].status == s then 1 else 0) + CountStatus(devices[1..], s)
  {
  }

  /** How many entries the recent-activity panel shows at most. */
  const RecentLimit: nat := 10

  /** `displayLogs.slice(0, 10)`: the first ten entries, or all of them when fewer. */
  function RecentActivity(displayLogs: seq<HistoryLog>): (r: seq<HistoryLog>)
    ensures |r| == if |displayLogs| < RecentLimit then |displayLogs| else RecentLimit
    ensures r == displayLogs[..|r|]
  {
    if |displayLogs| < RecentLimit then displayLogs else displayLogs[..RecentLimit]
  }

  /** After a mutation that logged, the panel (unfiltered) shows the new entry first,
      followed by what it showed before less its last entry when it was full. */
  lemma NewestEntryShownFirst(st: Storage, m: Mutation)
    requires LoggedOnce(st, m)
    ensures var before := RecentActivity(GetLogs(st));
      RecentActivity(GetLogs(m.store))
        == [m.posted.value] + (if |before| < RecentLimit then before else before[..RecentLimit - 1])
  {
    var prev := GetLogs(st);
    var now := GetLogs(m.store);
    assert now == [m.posted.value] + prev;
    if |prev| >= RecentLimit {
      assert now[..RecentLimit] == [m.posted.value] + prev[..RecentLimit - 1];
    }
  }

  /** The label of a log entry's age. */
  datatype RelativeTime = JustNow | MinutesAgo(minutes: nat) | HoursAgo(hours: nat) | OnDate(localeDate: string)

  /** `Math.floor(ms / 1000)`: Dafny's division by a positive divisor already rounds down,
      also for a negative (future) difference. */
  function SecondsElapsed(elapsedMs: int): (secs: int)
    ensures secs * 1000 <= elapsedMs < (secs + 1) * 1000
  {
    elapsedMs / 1000
  }

  /** `getRelativeTime`: under a minute (or in the future) is "just now"; under an hour,
      whole minutes; under a day, whole hours; otherwise the entry's locale date, passed in.
      The count in each bucket is the number of whole units elapsed. */
  function GetRelativeTime(elapsedMs: int, localeDate: string): (r: RelativeTime)
    ensures var secs := SecondsElapsed(elapsedMs);
      && (r.JustNow? <==> secs < 60)
      && (r.MinutesAgo? <==> 60 <= secs < 3600)
      && (r.HoursAgo? <==> 3600 <= secs < 86400)
      && (r.OnDate? <==> secs >= 86400)
      && (r.MinutesAgo? ==> 1 <= r.minutes < 60 && r.minutes * 60 <= secs < (r.minutes + 1) * 60)
      && (r.HoursAgo? ==> 1 <= r.hours < 24 && r.hours * 3600 <= secs < (r.hours + 1) * 3600)
      && (r.OnDate? ==> r.localeDate == localeDate)
  {
    var secs := SecondsElapsed(elapsedMs);
    if secs < 60 then JustNow
    else if secs < 3600 then MinutesAgo(secs / 60)
    else if secs < 86400 then HoursAgo(secs / 3600)
    else OnDate(localeDate)
  }

  const JustNowLabel: string := "เมื่อสักครู่"
  const MinutesSuffix: string := " นาทีที่แล้ว"
  const HoursSuffix: string := " ชั่วโมงที่แล้ว"

  /** `text` is a count in shortest decimal (no leading zero) followed by `suffix`, and the
      digits read back as `n`. */
  predicate CountLabel(text: string, suffix: string, n: nat) {
    && |suffix| < |text| && text[|text| - |suffix|..] == suffix
    && (forall i :: 0 <= i < |text| - |suffix| ==> IsDigit(text[i]))
    && (|text| - |suffix| > 1 ==> text[0] != '0')
    && DecimalValue(text[..|text| - |suffix|]) == n
  }

  /** The label text: a count label reads back as its count, before the unit's words. */
  function RenderRelativeTime(t: RelativeTime): (r: string)
    ensures t.JustNow? ==> r == JustNowLabel
    ensures t.MinutesAgo? ==> CountLabel(r, MinutesSuffix, t.minutes)
    ensures t.HoursAgo? ==> CountLabel(r, HoursSuffix, t.hours)
    ensures t.OnDate? ==> r == t.localeDate
  {
    match t
    case JustNow => JustNowLabel
    case MinutesAgo(n) => CountLabelOf(n, MinutesSuffix); NatToString(n) + MinutesSuffix
    case HoursAgo(n) => CountLabelOf(n, HoursSuffix); NatToString(n) + HoursSuffix
    case OnDate(d) => d
  }

  /** A rendered count, then a non-empty suffix, is a count label for that count. */
  lemma CountLabelOf(n: nat, suffix: string)
    requires suffix != ""
    ensures CountLabel(NatToString(n) + suffix, suffix, n)
  {
    var x := NatToString(n);
    NatToStringRoundTrip(n);
    assert (x + suffix)[..|x|] == x;
    assert (x + suffix)[|x|..] == suffix;
  }

  /** Different minute counts give different labels. */
  lemma MinuteLabelsDistinct(a: nat, b: nat)
    requires RenderRelativeTime(MinutesAgo(a)) == RenderRelativeTime(MinutesAgo(b))
    ensures a == b
  {
    var suffix := MinutesSuffix;
    var x := NatToString(a);
    var y := NatToString(b);
    assert x + suffix == y + suffix;
    assert |x| == |y|;
    assert x == (x + suffix)[..|x|];
    assert y == (y + suffix)[..|y|];
    NatToStringRoundTrip(a);
    NatToStringRoundTrip(b);
  }
}

=== FILE: csv.dfy ===
/** Comma-separated text as the exported report uses it: double-quote enclosure with internal
    quotes doubled, commas between fields, newlines between records. Besides the encoder the
    module holds an independent reader for that format, and proves that reading what was
    written gives back the field values, which is what the escaping is for. */
module Csv {
  import opened Optional
  import opened Strings

  /** `s.replace(/"/g, '""')`: every double quote doubled, everything else kept. */
  function EscapeQuotes(s: string): (r: string)
    ensures |r| >= |s|
    ensures '"' !in s ==> r == s
    decreases |s|
  {
    if |s| == 0 then ""
    else (if s[0] == '"' then "\"\"" else [s[0]]) + EscapeQuotes(s[1..])
  }

  /** One field as written: enclosed in quotes (its text escaped) or bare. */
  datatype Field = Quoted(text: string) | Bare(text: string)

  /** A bare field can be read back only if it holds no separator and no quote. */
  predicate FieldOk(f: Field) {
    f.Bare? ==> ',' !in f.text && '\n' !in f.text && '"' !in f.text
  }

  /** Text between a pair of double quotes, as a template literal `"${x}"` writes it. */
  function Enclose(x: string): string {
    "\"" + x + "\""
  }

  /** Every field of every record can be read back. */
  predicate AllFieldsOk(records: seq<seq<Field>>) {
    forall k, i :: 0 <= k < |records| && 0 <= i < |records[k]| ==> FieldOk(records[k][i])
  }

  function EncodeField(f: Field): string {
    match f
    case Quoted(t) => Enclose(EscapeQuotes(t))
    case Bare(t) => t
  }

  function EncodeFields(fs: seq<Field>): (r: seq<string>)
    ensures |r| == |fs|
    ensures forall i :: 0 <= i < |fs| ==> r[i] == EncodeField(fs[i])
    decreases |fs|
  {
    if |fs| == 0 then [] else [EncodeField(fs[0])] + EncodeFields(fs[1..])
  }

  /** A record: its encoded fields joined by commas. */
  function EncodeRecord(fs: seq<Field>): string {
    Join(EncodeFields(fs), ",")
  }

  function EncodeRecords(records: seq<seq<Field>>): (r: seq<string>)
    ensures |r| == |records|
    ensures forall i :: 0 <= i < |records| ==> r[i] == EncodeRecord(records[i])
    decreases |records|
  {
    if |records| == 0 then [] else [EncodeRecord(records[0])] + EncodeRecords(records[1..])
  }

  /** A document: its encoded records joined by newlines. */
  function EncodeDocument(records: seq<seq<Field>>): string {
    Join(EncodeRecords(records), "\n")
  }

  /** The values a record carries. */
  function Texts(fs: seq<Field>): (r: seq<string>)
    ensures |r| == |fs|
    ensures forall i :: 0 <= i < |fs| ==> r[i] == fs[i].text
    decreases |fs|
  {
    if |fs| == 0 then [] else [fs[0].text] + Texts(fs[1..])
  }

  function AllTexts(records: seq<seq<Field>>): (r: seq<seq<string>>)
    ensures |r| == |records|
    ensures forall i :: 0 <= i < |records| ==> r[i] == Texts(records[i])
    decreases |records|
  {
    if |records| == 0 then [] else [Texts(records[0])] + AllTexts(records[1..])
  }

  /** What a reader consumed and the text it left. */
  datatype Parsed<T> = Parsed(value: T, rest: string)

  /** Reads the inside of a quoted field, `s` starting just after the opening quote: a
      doubled quote stands for one quote, a single quote closes the field. Fails when the
      text ends before the closing quote. */
  function ParseQuotedBody(s: string): (r: Option<Parsed<string>>)
    ensures r.Some? ==> |r.value.rest| < |s|
    decreases |s|
  {
    if |s| == 0 then None
    else if s[0] == '"' then
      if |s| >= 2 && s[1] == '"' then
        match ParseQuotedBody(s[2..])
        case None => None
        case Some(p) => Some(Parsed("\"" + p.value, p.rest))
      else Some(Parsed("", s[1..]))
    else
      match ParseQuotedBody(s[1..])
      case None => None
      case Some(p) => Some(Parsed([s[0]] + p.value, p.rest))
  }

  /** Reads a bare field: everything up to the next comma, newline or end of text. */
  function ParseBare(s: string): (r: Parsed<string>)
    ensures |r.rest| <= |s|
    decreases |s|
  {
    if |s| == 0 || s[0] == ',' || s[0] == '\n' then Parsed("", s)
    else
      var p := ParseBare(s[1..]);
      Parsed([s[0]] + p.value, p.rest)
  }

  function ParseField(s: string): (r: Option<Parsed<string>>)
    ensures r.Some? ==> |r.value.rest| <= |s|
  {
    if |s| > 0 && s[0] == '"' then ParseQuotedBody(s[1..]) else Some(ParseBare(s))
  }

  /** Reads one record: fields separated by commas, up to a newline or the end of text,
      which is left unread. Fails on anything else after a field. */
  function ParseRecord(s: string): (r: Option<Parsed<seq<string>>>)
    ensures r.Some? ==> |r.value.rest| <= |s|
    ensures r.Some? ==> r.value.rest == "" || r.value.rest[0] == '\n'
    ensures r.Some? ==> |r.value.value| >= 1
    decreases |s|
  {
    match ParseField(s)
    case None => None
    case Some(f) =>
      if |f.rest| > 0 && f.rest[0] == ',' then
        match ParseRecord(f.rest[1..])
        case None => None
        case Some(more) => Some(Parsed([f.value] + more.value, more.rest))
      else if f.rest == "" || f.rest[0] == '\n' then Some(Parsed([f.value], f.rest))
      else None
  }

  /** Reads a whole document: records separated by newlines. */
  function ParseDocument(s: string): (r: Option<seq<seq<string>>>)
    ensures r.Some? ==> |r.value| >= 1
    decreases |s|
  {
    match ParseRecord(s)
    case None => None
    case Some(rec) =>
      if rec.rest == "" then Some([rec.value])
      else
        match ParseDocument(rec.rest[1..])
        case None => None
        case Some(recs) => Some([rec.value] + recs)
  }

  /** Escaping then reading back: the quoted text is recovered exactly, and the reader
      stops right after the closing quote. */
  lemma {:induction false} QuotedRoundTrip(t: string, rest: string)
    requires rest == "" || rest[0] != '"'
    ensures ParseQuotedBody(EscapeQuotes(t) + "\"" + rest) == Some(Parsed(t, rest))
    decreases |t|
  {
    var s := EscapeQuotes(t) + "\"" + rest;
    if |t| == 0 {
      assert s == "\"" + rest;
      assert s[0] == '"' && s[1..] == rest;
      assert |s| >= 2 ==> s[1] != '"';
    } else {
      var inner := EscapeQuotes(t[1..]) + "\"" + rest;
      QuotedRoundTrip(t[1..], rest);
      if t[0] == '"' {
        EscapedUnfoldQuote(t, rest);
        QuotedStep(inner);
        assert "\"" + t[1..] == t;
      } else {
        EscapedUnfoldPlain(t, rest);
        PlainStep(t[0], inner);
        assert [t[0]] + t[1..] == t;
      }
    }
  }

  /** Escaped text starting with a quote: the doubled quote, then the rest escaped. */
  lemma EscapedUnfoldQuote(t: string, rest: string)
    requires |t| > 0 && t[0] == '"'
    ensures EscapeQuotes(t) + "\"" + rest == "\"\"" + (EscapeQuotes(t[1..]) + "\"" + rest)
  {
    assert EscapeQuotes(t) == "\"\"" + EscapeQuotes(t[1..]);
    ConcatAssoc("\"\"", EscapeQuotes(t[1..]), "\"", rest);
  }

  /** Escaped text starting with any other character: that character, then the rest
      escaped. */
  lemma EscapedUnfoldPlain(t: string, rest: string)
    requires |t| > 0 && t[0] != '"'
    ensures EscapeQuotes(t) + "\"" + rest == [t[0]] + (EscapeQuotes(t[1..]) + "\"" + rest)
  {
    assert EscapeQuotes(t) == [t[0]] + EscapeQuotes(t[1..]);
    ConcatAssoc([t[0]], EscapeQuotes(t[1..]), "\"", rest);
  }

  lemma ConcatAssoc(a: string, b: string, c: string, d: string)
    ensures a + b + c + d == a + (b + c + d)
  {
  }

  /** A doubled quote is read as one quote, and reading goes on after it. */
  lemma QuotedStep(inner: string)
    ensures ParseQuotedBody("\"\"" + inner) ==
              match ParseQuotedBody(inner)
              case None => None
              case Some(p) => Some(Parsed("\"" + p.value, p.rest))
  {
    var s := "\"\"" + inner;
    assert s[0] == '"' && s[1] == '"' && s[2..] == inner;
  }

  /** Any other character is kept, and reading goes on after it. */
  lemma PlainStep(c: char, inner: string)
    requires c != '"'
    ensures ParseQuotedBody([c] + inner) ==
              match ParseQuotedBody(inner)
              case None => None
              case Some(p) => Some(Parsed([c] + p.value, p.rest))
  {
    var s := [c] + inner;
    assert s[0] == c && s[1..] == inner;
  }

  lemma {:induction false} BareRoundTrip(t: string, rest: string)
    requires ',' !in t && '\n' !in t
    requires rest == "" || rest[0] == ',' || rest[0] == '\n'
    ensures ParseBare(t + rest) == Parsed(t, rest)
    decreases |t|
  {
    if |t| == 0 {
      assert t + rest == rest;
    } else {
      BareRoundTrip(t[1..], rest);
      assert (t + rest)[1..] == t[1..] + rest;
      assert [t[0]] + t[1..] == t;
    }
  }

  /** Any well-formed field is read back as its text, whatever separator follows it. */
  lemma FieldRoundTrip(f: Field, rest: string)
    requires FieldOk(f)
    requires rest == "" || rest[0] == ',' || rest[0] == '\n'
    ensures ParseField(EncodeField(f) + rest) == Some(Parsed(f.text, rest))
  {
    match f
    case Quoted(t) =>
      var inner := EscapeQuotes(t) + "\"" + rest;
      QuotedRoundTrip(t, rest);
      ConcatAssoc("\"", EscapeQuotes(t), "\"", rest);
      assert ("\"" + inner)[0] == '"' && ("\"" + inner)[1..] == inner;
    case Bare(t) =>
      BareRoundTrip(t, rest);
  }

  /** A record of well-formed fields is read back as its field values, and the reader stops
      at the newline (or end of text) after it. */
  lemma {:induction false} RecordRoundTrip(fs: seq<Field>, rest: string)
    requires |fs| >= 1
    requires forall i :: 0 <= i < |fs| ==> FieldOk(fs[i])
    requires rest == "" || rest[0] == '\n'
    ensures ParseRecord(EncodeRecord(fs) + rest) == Some(Parsed(Texts(fs), rest))
    decreases |fs|
  {
    if |fs| == 1 {
      assert EncodeFields(fs) == [EncodeField(fs[0])];
      assert EncodeRecord(fs) == EncodeField(fs[0]);
      FieldRoundTrip(fs[0], rest);
      assert Texts(fs) == [fs[0].text];
    } else {
      var tail := EncodeRecord(fs[1..]) + rest;
      assert EncodeFields(fs)[1..] == EncodeFields(fs[1..]);
      assert EncodeRecord(fs) + rest == EncodeField(fs[0]) + ("," + tail);
      FieldRoundTrip(fs[0], "," + tail);
      RecordRoundTrip(fs[1..], rest);
      assert ("," + tail)[1..] == tail;
      assert Texts(fs) == [fs[0].text] + Texts(fs[1..]);
    }
  }

  /** A document of non-empty records of well-formed fields is read back record by record,
      field by field: one record per encoded record, in order. */
  lemma {:induction false} DocumentRoundTrip(records: seq<seq<Field>>)
    requires |records| >= 1
    requires forall k :: 0 <= k < |records| ==> |records[k]| >= 1
    requires AllFieldsOk(records)
    ensures ParseDocument(EncodeDocument(records)) == Some(AllTexts(records))
    decreases |records|
  {
    if |records| == 1 {
      assert EncodeRecords(records) == [EncodeRecord(records[0])];
      assert EncodeDocument(records) == EncodeRecord(records[0]) + "";
      RecordRoundTrip(records[0], "");
      assert AllTexts(records) == [Texts(records[0])];
    } else {
      var tail := EncodeDocument(records[1..]);
      assert EncodeRecords(records)[1..] == EncodeRecords(records[1..]);
      assert EncodeDocument(records) == EncodeRecord(records[0]) + ("\n" + tail);
      RecordRoundTrip(records[0], "\n" + tail);
      DocumentRoundTrip(records[1..]);
      assert ("\n" + tail)[1..] == tail;
      assert AllTexts(records) == [Texts(records[0])] + AllTexts(records[1..]);
    }
  }
}

=== FILE: get_employees.dfy ===
/** The directory endpoint (api/get-employees.ts): reads the technicians' names from the staff
    sheet of the spreadsheet. Authentication and the service calls are outside the model: the
    document the service loads and an error thrown while fetching rows are parameters. */
module EmployeeDirectory {
  import opened Optional
  import opened Strings
  import opened Lists
  import opened Http
  import opened Spreadsheet
  import StorageService

  /** The numeric id of the staff sheet. */
  const StaffSheetId: nat := 277093410

  /** The header of the name column. */
  const NameColumn: string := "ชื่อ-สกุล"

  const StaffSheetMissing: string := "Sheet \"รายชื่อพนักงาน\" (GID: 277093410) not found"

  /** `name && name.trim() !== ''`: set, and not blank once trimmed. */
  predicate IsName(cell: Option<string>) {
    Truthy(cell) && Trim(cell.value) != ""
  }

  /** The strings of cells that are all set. */
  function Values(cells: seq<Option<string>>): (r: seq<string>)
    requires forall i :: 0 <= i < |cells| ==> cells[i].Some?
    ensures |r| == |cells|
    ensures forall i :: 0 <= i < |cells| ==> r[i] == cells[i].value
    decreases |cells|
  {
    if |cells| == 0 then []
    else
      var rest := Values(cells[1..]);
      assert forall i :: 1 <= i < |cells| ==> cells[1..][i - 1] == cells[i];
      [cells[0].value] + rest
  }

  /** The name column of each row, `undefined` where a row has no such cell. */
  function NameCells(rows: seq<Row>): (r: seq<Option<string>>)
    ensures |r| == |rows|
    ensures forall i :: 0 <= i < |rows| ==> r[i] == Cell(rows[i], NameColumn)
  {
    seq(|rows|, i requires 0 <= i < |rows| => Cell(rows[i], NameColumn))
  }

  /** The names sent back: the name cells that are not blank, in sheet order and exactly as
      written (they are not trimmed). A name is sent exactly when some row holds it and it
      has a character other than white space, and as many times as rows hold it. */
  function NonBlankNames(cells: seq<Option<string>>): (r: seq<string>)
    ensures |r| <= |cells|
    ensures forall s :: s in r <==> Some(s) in cells && !AllWhitespace(s)
    ensures forall s :: multiset(r)[s] == if AllWhitespace(s) then 0 else multiset(cells)[Some(s)]
    ensures forall i :: 0 <= i < |r| ==> Trim(r[i]) != ""
  {
    var r := Values(Filter(IsName, cells));
    forall s
      ensures s in r <==> Some(s) in cells && !AllWhitespace(s)
      ensures multiset(r)[s] == if AllWhitespace(s) then 0 else multiset(cells)[Some(s)]
    {
      NameKept(cells, s);
    }
    r
  }

  /** A string is among the kept names exactly when it is a non-blank cell, and it is kept
      as often as the column holds it. */
  lemma NameKept(cells: seq<Option<string>>, s: string)
    ensures s in Values(Filter(IsName, cells)) <==> Some(s) in cells && !AllWhitespace(s)
    ensures multiset(Values(Filter(IsName, cells)))[s] == if AllWhitespace(s) then 0 else multiset(cells)[Some(s)]
  {
    var kept := Filter(IsName, cells);
    ValuesMembership(kept, s);
    ValuesCopies(kept, s);
    TrimEmptyIffBlank(s);
    assert IsName(Some(s)) <==> !AllWhitespace(s);
  }

  /** A string is among the values exactly when it is one of the cells. */
  lemma ValuesMembership(cells: seq<Option<string>>, s: string)
    requires forall i :: 0 <= i < |cells| ==> cells[i].Some?
    ensures s in Values(cells) <==> Some(s) in cells
  {
    var r := Values(cells);
    if s in r {
      var i :| 0 <= i < |r| && r[i] == s;
      assert cells[i] in cells;
    }
    if Some(s) in cells {
      var i :| 0 <= i < |cells| && cells[i] == Some(s);
      assert r[i] == s;
    }
  }

  /** Unwrapping set cells keeps how often each string occurs. */
  lemma {:induction false} ValuesCopies(cells: seq<Option<string>>, s: string)
    requires forall i :: 0 <= i < |cells| ==> cells[i].Some?
    ensures multiset(Values(cells))[s] == multiset(cells)[Some(s)]
    decreases |cells|
  {
    if |cells| > 0 {
      ValuesCopies(cells[1..], s);
      assert cells == [cells[0]] + cells[1..];
    }
  }

  /** The names keep the order of the rows: wrapped back into cells, they are a
      subsequence of the name column. */
  lemma NamesKeepSheetOrder(cells: seq<Option<string>>)
    ensures IsSubsequence(Wrap(NonBlankNames(cells)), cells)
  {
    var kept := Filter(IsName, cells);
    FilterIsSubsequence(IsName, cells);
    WrapValues(kept);
  }

  /** Every string as a set cell. */
  function Wrap(names: seq<string>): (r: seq<Option<string>>)
    ensures |r| == |names|
    ensures forall i :: 0 <= i < |names| ==> r[i] == Some(names[i])
  {
    seq(|names|, i requires 0 <= i < |names| => Some(names[i]))
  }

  /** Wrapping the values of set cells gives the cells back. */
  lemma WrapValues(cells: seq<Option<string>>)
    requires forall i :: 0 <= i < |cells| ==> cells[i].Some?
    ensures Wrap(Values(cells)) == cells
  {
    var w := Wrap(Values(cells));
    assert forall i :: 0 <= i < |cells| ==> w[i] == cells[i];
  }

  /** Filtering again changes nothing: the list sent back is already clean. */
  lemma {:induction false} NonBlankNamesIdempotent(cells: seq<Option<string>>)
    ensures NonBlankNames(Wrap(NonBlankNames(cells))) == NonBlankNames(cells)
  {
    var names := NonBlankNames(cells);
    var kept := Filter(IsName, cells);
    WrapValues(kept);
    forall i | 0 <= i < |kept|
      ensures IsName(kept[i])
    {
    }
    FilterKeepsAll(IsName, kept);
  }

  /** The handler. Without both credentials it answers 200 with an empty list and does not
      contact the service. Otherwise an error thrown while loading the document or reading
      the rows becomes 500 carrying its message, and a document without the staff sheet gives
      404. It lists names exactly when none of these happens, and then sends the
      non-blank names of the staff sheet. */
  function Handle(env: Env, load: string -> Fallible<Document>, getRowsError: Option<string>): (r: Response)
    ensures !HasCredentials(env) ==> r == Response(200, NameList([]))
    ensures r.status in {200, 404, 500}
    ensures HasCredentials(env) && load(DocumentId(env)).Threw? ==>
              r == Response(500, ErrorBody(load(DocumentId(env)).message))
    ensures r.status == 404 <==>
              HasCredentials(env) && load(DocumentId(env)).Ok? && SheetById(load(DocumentId(env)).value, StaffSheetId).None?
    ensures r.status == 404 ==> r.body == ErrorBody(StaffSheetMissing)
    ensures HasCredentials(env) && load(DocumentId(env)).Ok? && SheetById(load(DocumentId(env)).value, StaffSheetId).Some?
            && getRowsError.Some? ==>
              r == Response(500, ErrorBody(getRowsError.value))
    ensures HasCredentials(env) ==>
              (r.status == 200 <==>
                load(DocumentId(env)).Ok? && SheetById(load(DocumentId(env)).value, StaffSheetId).Some? && getRowsError.None?)
    ensures HasCredentials(env) && r.status == 200 ==>
              var doc := load(DocumentId(env)).value;
              var sheet := doc.sheets[SheetById(doc, StaffSheetId).value];
              && sheet.sheetId == StaffSheetId
              && r.body == NameList(NonBlankNames(NameCells(sheet.rows)))
  {
    if !HasCredentials(env) then Response(200, NameList([]))
    else
      match load(DocumentId(env))
      case Threw(message) => Response(500, ErrorBody(message))
      case Ok(doc) =>
        match SheetById(doc, StaffSheetId)
        case None => Response(404, ErrorBody(StaffSheetMissing))
        case Some(k) =>
          match getRowsError
          case Some(message) => Response(500, ErrorBody(message))
          case None => Response(200, NameList(NonBlankNames(NameCells(doc.sheets[k].rows))))
  }

  /** What the browser makes of a directory response: its `ok` flag, and an array body or
      some other JSON. */
  function ClientView(r: Response): StorageService.DirectoryFetch {
    StorageService.Fetched(IsOk(r), if r.body.NameList? then StorageService.NameArray(r.body.names) else StorageService.OtherJson)
  }

  /** End to end: the client adopts the server's answer exactly when the server listed at
      least one name; every name it adopts has a non-blank character. Otherwise (missing
      credentials, missing sheet, service error, empty staff sheet) it keeps its cache or
      the built-in list. */
  lemma ClientAdoptsOnlyListedNames(st: StorageService.Storage, env: Env, load: string -> Fallible<Document>,
                                    getRowsError: Option<string>)
    ensures var r := Handle(env, load, getRowsError);
      var got := StorageService.GetEmployees(st, ClientView(r)).value;
      && (StorageService.UsableDirectory(ClientView(r)) <==> r.status == 200 && |r.body.names| > 0)
      && (StorageService.UsableDirectory(ClientView(r)) ==> got == r.body.names && forall i :: 0 <= i < |got| ==> !AllWhitespace(got[i]))
      && (!HasCredentials(env) ==> got == (if st.employeeSlot.Some? then st.employeeSlot.value else StorageService.InitialEmployees))
  {
    var r := Handle(env, load, getRowsError);
    if StorageService.UsableDirectory(ClientView(r)) {
      var got := r.body.names;
      forall i | 0 <= i < |got|
        ensures !AllWhitespace(got[i])
      {
        assert got[i] in got;
      }
    }
  }
}

=== FILE: http.dfy ===
/** What the two serverless endpoints share: their environment, the private-key unescaping
    both apply before authenticating, and the JSON responses they send. */
module Http {
  import opened Optional

  /** The server's environment variables: the service account's email and private key, and
      the id of the spreadsheet document. Each may be unset. */
  datatype Env = Env(serviceAccountEmail: Option<string>, privateKey: Option<string>, sheetId: Option<string>)

  /** JavaScript truthiness of a value that is a string or `undefined`: set and non-empty. */
  predicate Truthy(o: Option<string>) {
    o.Some? && o.value != ""
  }

  /** Both endpoints proceed only when the email and the key are both truthy. */
  predicate HasCredentials(env: Env) {
    Truthy(env.serviceAccountEmail) && Truthy(env.privateKey)
  }

  /** The document both endpoints open when no id is configured. */
  const DefaultDocumentId: string := "1rI_yoyNOLKhzmxt2jCWT-bKkcn14TPylfATAifKlIYI"

  /** `GOOGLE_SHEET_ID || default`: never empty, and the configured id whenever one is set. */
  function DocumentId(env: Env): (r: string)
    ensures r != ""
    ensures Truthy(env.sheetId) ==> r == env.sheetId.value
  {
    if Truthy(env.sheetId) then env.sheetId.value else DefaultDocumentId
  }

  /** A backslash followed by `n` somewhere in `s`. */
  predicate HasEscapedNewline(s: string) {
    exists i :: 0 <= i < |s| - 1 && s[i] == '\\' && s[i + 1] == 'n'
  }

  /** `key.replace(/\\n/g, '\n')`: each backslash-`n` pair, scanned left to right without
      overlap, becomes a newline. Nothing else changes, so a key without backslashes comes
      through unchanged, no backslash-`n` pair is left over, and a key in escaped form gives
      back the text that escapes to it. */
  function DecodePrivateKey(key: string): (r: string)
    ensures |r| <= |key|
    ensures |key| > 0 ==> |r| > 0 && r[0] == (if |key| >= 2 && key[0] == '\\' && key[1] == 'n' then '\n' else key[0])
    ensures '\\' !in key ==> r == key
    ensures !HasEscapedNewline(r)
    ensures EscapedForm(key) ==> EscapeNewlines(r) == key
    decreases |key|
  {
    if |key| == 0 then ""
    else if |key| >= 2 && key[0] == '\\' && key[1] == 'n' then
      var rest := DecodePrivateKey(key[2..]);
      var r := "\n" + rest;
      assert forall i :: 0 < i < |r| ==> r[i] == rest[i - 1];
      EscapePairStep(key, rest);
      r
    else
      var rest := DecodePrivateKey(key[1..]);
      var r := [key[0]] + rest;
      assert forall i :: 0 < i < |r| ==> r[i] == rest[i - 1];
      EscapePlainStep(key, rest);
      r
  }

  /** What escaping newlines can produce: no newline, and every backslash starts a
      backslash-`n` pair. */
  predicate EscapedForm(key: string) {
    && '\n' !in key
    && forall i :: 0 <= i < |key| && key[i] == '\\' ==> i + 1 < |key| && key[i + 1] == 'n'
  }

  /** Escaping undoes the decoding of a leading backslash-`n` pair, given that it undoes the
      decoding of the rest. */
  lemma EscapePairStep(key: string, rest: string)
    requires |key| >= 2 && key[0] == '\\' && key[1] == 'n'
    requires EscapedForm(key[2..]) ==> EscapeNewlines(rest) == key[2..]
    ensures EscapedForm(key) ==> EscapeNewlines("\n" + rest) == key
  {
    if EscapedForm(key) {
      EscapedFormSuffix(key, 2);
      assert ("\n" + rest)[1..] == rest;
      assert key == "\\n" + key[2..];
    }
  }

  /** Escaping undoes the decoding of a leading character that starts no pair, given that it
      undoes the decoding of the rest. */
  lemma EscapePlainStep(key: string, rest: string)
    requires |key| > 0 && !(|key| >= 2 && key[0] == '\\' && key[1] == 'n')
    requires EscapedForm(key[1..]) ==> EscapeNewlines(rest) == key[1..]
    ensures EscapedForm(key) ==> EscapeNewlines([key[0]] + rest) == key
  {
    if EscapedForm(key) {
      EscapedFormSuffix(key, 1);
      assert key[0] != '\n' && key[0] != '\\';
      assert ([key[0]] + rest)[1..] == rest;
      assert key == [key[0]] + key[1..];
    }
  }

  /** What follows a prefix of a key in escaped form is in escaped form too. */
  lemma EscapedFormSuffix(key: string, n: nat)
    requires EscapedForm(key) && n <= |key|
    ensures EscapedForm(key[n..])
  {
    forall i | 0 <= i < |key[n..]| && key[n..][i] == '\\'
      ensures i + 1 < |key[n..]| && key[n..][i + 1] == 'n'
    {
      assert key[i + n] == '\\';
    }
  }

  /** How a multi-line key is usually written into a one-line environment variable: each
      newline as backslash-`n`. */
  function EscapeNewlines(key: string): (r: string)
    decreases |key|
  {
    if |key| == 0 then ""
    else (if key[0] == '\n' then "\\n" else [key[0]]) + EscapeNewlines(key[1..])
  }

  /** For a key with no backslash of its own (a PEM key has none), unescaping gives back the
      key that was escaped into the variable. */
  lemma {:induction false} DecodeUndoesEscape(key: string)
    requires '\\' !in key
    ensures DecodePrivateKey(EscapeNewlines(key)) == key
    decreases |key|
  {
    if |key| > 0 {
      DecodeUndoesEscape(key[1..]);
      var tail := EscapeNewlines(key[1..]);
      if key[0] == '\n' {
        assert EscapeNewlines(key) == "\\n" + tail;
        assert ("\\n" + tail)[2..] == tail;
        assert key == "\n" + key[1..];
      } else {
        assert EscapeNewlines(key) == [key[0]] + tail;
        assert ([key[0]] + tail)[1..] == tail;
        assert key == [key[0]] + key[1..];
      }
    }
  }

  /** The JSON an endpoint answers with. */
  datatype Body = ErrorBody(error: string) | SuccessBody | NameList(names: seq<string>)

  datatype Response = Response(status: nat, body: Body)

  /** `response.ok` as the browser reports it. */
  predicate IsOk(r: Response) {
    200 <= r.status < 300
  }
}

=== FILE: lists.dfy ===
/** `Array.prototype.filter` and the facts about it the core leans on. */
module Lists {

  /** `s.filter(p)`: the elements satisfying `p`, in their original order, each passing
      element as many times as it occurs in `s` and every other element not at all. */
  function Filter<T(!new)>(p: T -> bool, s: seq<T>): (r: seq<T>)
    ensures |r| <= |s|
    ensures forall x :: x in r <==> x in s && p(x)
    ensures forall i :: 0 <= i < |r| ==> p(r[i])
    ensures KeepsCopies(p, s, r)
    decreases |s|
  {
    if |s| == 0 then []
    else
      var rest := Filter(p, s[1..]);
      assert s == [s[0]] + s[1..];
      if p(s[0]) then [s[0]] + rest else rest
  }

  /** `r` holds each element satisfying `p` exactly as often as `s` does, and nothing else. */
  ghost predicate KeepsCopies<T(!new)>(p: T -> bool, s: seq<T>, r: seq<T>) {
    forall x :: multiset(r)[x] == if p(x) then multiset(s)[x] else 0
  }

  /** `a` is `b` with some elements removed and the rest kept in order. */
  predicate IsSubsequence<T(==)>(a: seq<T>, b: seq<T>)
    decreases |b|
  {
    |a| == 0 || (|b| > 0 && ((a[0] == b[0] && IsSubsequence(a[1..], b[1..])) || IsSubsequence(a, b[1..])))
  }

  /** Filtering never reorders: its result is a subsequence of its input. */
  lemma {:induction false} FilterIsSubsequence<T(!new)>(p: T -> bool, s: seq<T>)
    ensures IsSubsequence(Filter(p, s), s)
    decreases |s|
  {
    if |s| > 0 {
      FilterIsSubsequence(p, s[1..]);
      if p(s[0]) {
        assert Filter(p, s)[1..] == Filter(p, s[1..]);
      }
    }
  }

  /** When every element passes, filtering keeps the whole sequence. */
  lemma {:induction false} FilterKeepsAll<T(!new)>(p: T -> bool, s: seq<T>)
    requires forall i :: 0 <= i < |s| ==> p(s[i])
    ensures Filter(p, s) == s
    decreases |s|
  {
    if |s| > 0 {
      FilterKeepsAll(p, s[1..]);
    }
  }

  /** Every sequence is a subsequence of itself. */
  lemma {:induction false} SubsequenceReflexive<T>(s: seq<T>)
    ensures IsSubsequence(s, s)
    decreases |s|
  {
    if |s| > 0 {
      SubsequenceReflexive(s[1..]);
    }
  }
}

=== FILE: log_to_sheet.dfy ===
/** The append endpoint (api/log-to-sheet.ts): accepts a posted log entry and adds one row for
    it to the mirror spreadsheet. Authentication and the service calls are outside the model:
    the document the service loads, the server's clock reading and an error thrown while
    adding the row are parameters. */
module LogToSheet {
  import opened Optional
  import opened Types
  import opened StorageService
  import opened Http
  import opened Spreadsheet

  /** The fields of the posted JSON the handler reads; a field is absent when the JSON lacks
      the key (JSON drops `undefined` members). */
  datatype LogBody = LogBody(
    officerName: Option<string>,
    frtuSerial: Option<string>,
    action: Option<string>,
    details: Option<string>,
    eventDetails: Option<string>,
    phosData: Option<string>,
    phboData: Option<string>,
    status: Option<string>)

  datatype Request = Request(httpMethod: string, body: LogBody)

  /** What the client posts for a log entry: the entry serialised. The officer, serial and
      details travel as they are and the action and status by their values, from which the
      reader can tell them again. Save entries carry the device fields next to the standard
      ones; other entries have none of them. */
  function BodyOf(log: HistoryLog): (r: LogBody)
    ensures r.officerName == Some(log.officerName) && r.frtuSerial == Some(log.frtuSerial)
    ensures r.details == Some(log.details)
    ensures r.action.Some? && forall a: ActionType :: ActionName(a) == r.action.value <==> a == log.action
    ensures log.snapshot.Some? ==>
      && r.eventDetails == log.snapshot.value.eventDetails
      && r.phosData == log.snapshot.value.phosData && r.phboData == log.snapshot.value.phboData
      && r.status.Some? && StatusFromName(r.status.value) == Some(log.snapshot.value.status)
    ensures log.snapshot.None? ==> r.eventDetails.None? && r.phosData.None? && r.phboData.None? && r.status.None?
  {
    forall a: ActionType | ActionName(a) == ActionName(log.action)
      ensures a == log.action
    {
      ActionNameNamesOne(a, log.action);
    }
    LogBody(Some(log.officerName), Some(log.frtuSerial), Some(ActionName(log.action)), Some(log.details),
            if log.snapshot.Some? then log.snapshot.value.eventDetails else None,
            if log.snapshot.Some? then log.snapshot.value.phosData else None,
            if log.snapshot.Some? then log.snapshot.value.phboData else None,
            if log.snapshot.Some? then Some(StatusName(log.snapshot.value.status)) else None)
  }

  /** The body fields in the order of the sheet's columns after the timestamp. */
  function BodyFields(b: LogBody): seq<Option<string>> {
    [b.officerName, b.frtuSerial, b.action, b.details, b.eventDetails, b.phosData, b.phboData, b.status]
  }

  /** `value || '-'`: a truthy value, else a dash. Never empty. */
  function OrDash(o: Option<string>): (r: string)
    ensures r != ""
    ensures !Truthy(o) ==> r == "-"
  {
    if Truthy(o) then o.value else "-"
  }

  /** The row the handler builds, one field per sheet column. */
  datatype SheetRow = SheetRow(
    timestamp: string,
    officer: string,
    remoteUnitName: string,
    action: string,
    systemDetails: string,
    eventDetails: string,
    phosData: string,
    phboData: string,
    status: string)

  /** The cells after the timestamp, in column order. */
  function CellsAfterTime(row: SheetRow): seq<string> {
    [row.officer, row.remoteUnitName, row.action, row.systemDetails, row.eventDetails, row.phosData, row.phboData, row.status]
  }

  /** The row written for a body at a given server time: the time first, then for each
      column the truthy field or a dash; so no cell after the time is empty. */
  function RowFor(body: LogBody, timestamp: string): (r: SheetRow)
    ensures r.timestamp == timestamp
    ensures forall i :: 0 <= i < 8 ==>
      CellsAfterTime(r)[i] == (if Truthy(BodyFields(body)[i]) then BodyFields(body)[i].value else "-")
    ensures forall i :: 0 <= i < 8 ==> CellsAfterTime(r)[i] != ""
  {
    SheetRow(timestamp, OrDash(body.officerName), OrDash(body.frtuSerial), OrDash(body.action),
             OrDash(body.details), OrDash(body.eventDetails), OrDash(body.phosData), OrDash(body.phboData),
             OrDash(body.status))
  }

  /** The sheet's column headers, in column order. */
  const SheetColumns: seq<string> :=
    ["Timestamp", "Officer", "Remote Unit Name", "Action", "System Details", "Event Details",
     "PHOS Data", "PHBO Data", "Status"]

  /** The headers the handler writes are exactly the listed columns. */
  lemma ColumnsListed()
    ensures forall c :: c in SheetColumns <==>
      c in {"Timestamp", "Officer", "Remote Unit Name", "Action", "System Details", "Event Details",
            "PHOS Data", "PHBO Data", "Status"}
  {
    assert SheetColumns[0] == "Timestamp" && SheetColumns[1] == "Officer";
  }

  /** Reads a row back from its cells by column header; nothing when a header is missing. */
  function RowOfCells(cells: Row): Option<SheetRow> {
    if forall c :: c in SheetColumns ==> c in cells then
      Some(SheetRow(cells["Timestamp"], cells["Officer"], cells["Remote Unit Name"], cells["Action"],
                    cells["System Details"], cells["Event Details"], cells["PHOS Data"], cells["PHBO Data"],
                    cells["Status"]))
    else None
  }

  /** The values keyed by the sheet's column headers, as `addRow` receives them: each cell
      under its own header, so reading the cells by header gives the row back. */
  function HeaderCells(row: SheetRow): (r: Row)
    ensures RowOfCells(r) == Some(row)
  {
    map["Timestamp" := row.timestamp,
        "Officer" := row.officer,
        "Remote Unit Name" := row.remoteUnitName,
        "Action" := row.action,
        "System Details" := row.systemDetails,
        "Event Details" := row.eventDetails,
        "PHOS Data" := row.phosData,
        "PHBO Data" := row.phboData,
        "Status" := row.status]
  }

  /** The row goes in under the listed columns and no other key. */
  lemma HeaderCellsColumns(row: SheetRow)
    ensures forall c :: c in HeaderCells(row) <==> c in SheetColumns
  {
    ColumnsListed();
  }

  /** The row the sheet keeps reads back by header as the row the handler built exactly when
      the sheet's header row has all nine columns; a missing column loses its cell. */
  lemma StoredRowReadsBack(doc: Document, k: nat, row: SheetRow)
    requires k < |doc.sheets|
    ensures var stored := AddRow(doc, k, HeaderCells(row)).sheets[k].rows;
      RowOfCells(stored[|stored| - 1]) == Some(row) <==> forall c :: c in SheetColumns ==> c in doc.sheets[k].headers
  {
    var headers := doc.sheets[k].headers;
    var cells := HeaderCells(row);
    var stored := AddRow(doc, k, cells).sheets[k].rows;
    assert stored[|stored| - 1] == UnderHeaders(cells, headers);
    HeaderCellsColumns(row);
    if forall c :: c in SheetColumns ==> c in headers {
      UnderAllHeaders(cells, headers);
    } else {
      var c :| c in SheetColumns && c !in headers;
      MissingColumn(UnderHeaders(cells, headers), c);
    }
  }

  /** A row whose keys all have a column is kept whole. */
  lemma UnderAllHeaders(cells: Row, headers: seq<string>)
    requires forall c :: c in cells ==> c in headers
    ensures UnderHeaders(cells, headers) == cells
  {
  }

  /** Cells lacking one of the columns do not read back as a row. */
  lemma MissingColumn(cells: Row, c: string)
    requires c in SheetColumns && c !in cells
    ensures RowOfCells(cells) == None
  {
  }

  /** What a reader of the sheet can tell about a field from its cell: a dash means nothing. */
  function Undash(v: string): Option<string> {
    if v == "-" then None else Some(v)
  }

  /** A field as the sheet can preserve it: absent, empty and a lone dash all collapse. */
  function Canonical(o: Option<string>): (r: Option<string>)
    ensures r.Some? ==> Truthy(r)
  {
    if Truthy(o) && o.value != "-" then o else None
  }

  function CanonicalBody(b: LogBody): LogBody {
    LogBody(Canonical(b.officerName), Canonical(b.frtuSerial), Canonical(b.action), Canonical(b.details),
            Canonical(b.eventDetails), Canonical(b.phosData), Canonical(b.phboData), Canonical(b.status))
  }

  /** Reads the body fields back from a written row. */
  function ReadBack(row: SheetRow): LogBody {
    LogBody(Undash(row.officer), Undash(row.remoteUnitName), Undash(row.action), Undash(row.systemDetails),
            Undash(row.eventDetails), Undash(row.phosData), Undash(row.phboData), Undash(row.status))
  }

  /** The row keeps every field that is set, non-empty and not a lone dash, and loses only
      the difference between absent, empty and a dash. */
  lemma RowRoundTrip(body: LogBody, timestamp: string)
    ensures ReadBack(RowFor(body, timestamp)) == CanonicalBody(body)
  {
  }

  const MethodNotAllowed: string := "Method not allowed"
  const MissingCredentials: string := "Server misconfigured: Missing Google Credentials"

  /** The message of the TypeError thrown by `sheet.addRow` when `sheet` is undefined. */
  const NoSheetMessage: string := "Cannot read properties of undefined (reading 'addRow')"

  /** The title of the preferred sheet. */
  const DatabaseTitle: string := "database"

  /** The sheet the row goes to: the one titled "database", else the first sheet, else none. */
  function ChooseSheet(doc: Document): (r: Option<nat>)
    ensures r.Some? ==> r.value < |doc.sheets|
    ensures r.None? <==> |doc.sheets| == 0
    ensures (exists i :: 0 <= i < |doc.sheets| && doc.sheets[i].title == DatabaseTitle) ==>
              r.Some? && doc.sheets[r.value].title == DatabaseTitle
    ensures (forall i :: 0 <= i < |doc.sheets| ==> doc.sheets[i].title != DatabaseTitle) && |doc.sheets| > 0 ==>
              r == Some(0)
  {
    match SheetByTitle(doc, DatabaseTitle)
    case Some(k) => Some(k)
    case None => if |doc.sheets| > 0 then Some(0) else None
  }

  /** The response and, when a row was written, the document afterwards. */
  datatype Outcome = Outcome(response: Response, written: Option<Document>)

  /** The handler. Only POST is served (405 otherwise); without both credentials it fails
      with 500 before contacting the service; an error the service throws (loading the
      document, or adding the row, or the missing sheet) becomes 500 carrying its message.
      It succeeds exactly when none of these happens, and then the document has one more row,
      in the chosen sheet, built from the body. */
  function Handle(req: Request, env: Env, load: string -> Fallible<Document>, timestamp: string,
                  addRowError: Option<string>): (r: Outcome)
    ensures req.httpMethod != "POST" ==> r == Outcome(Response(405, ErrorBody(MethodNotAllowed)), None)
    ensures req.httpMethod == "POST" && !HasCredentials(env) ==>
              r == Outcome(Response(500, ErrorBody(MissingCredentials)), None)
    ensures r.response.status in {200, 405, 500}
    ensures r.response.status == 200 <==>
              && req.httpMethod == "POST" && HasCredentials(env)
              && load(DocumentId(env)).Ok? && |load(DocumentId(env)).value.sheets| > 0
              && addRowError.None?
    ensures r.written.Some? <==> r.response.status == 200
    ensures r.response.status == 200 ==>
              var doc := load(DocumentId(env)).value;
              var k := ChooseSheet(doc).value;
              && r.response.body == SuccessBody
              && r.written == Some(AddRow(doc, k, HeaderCells(RowFor(req.body, timestamp))))
    ensures req.httpMethod == "POST" && HasCredentials(env) && load(DocumentId(env)).Threw? ==>
              r.response == Response(500, ErrorBody(load(DocumentId(env)).message))
    ensures req.httpMethod == "POST" && HasCredentials(env) && load(DocumentId(env)).Ok?
            && |load(DocumentId(env)).value.sheets| == 0 ==>
              r.response == Response(500, ErrorBody(NoSheetMessage))
    ensures req.httpMethod == "POST" && HasCredentials(env) && load(DocumentId(env)).Ok?
            && |load(DocumentId(env)).value.sheets| > 0 && addRowError.Some? ==>
              r.response == Response(500, ErrorBody(addRowError.value))
  {
    if req.httpMethod != "POST" then Outcome(Response(405, ErrorBody(MethodNotAllowed)), None)
    else if !HasCredentials(env) then Outcome(Response(500, ErrorBody(MissingCredentials)), None)
    else
      match load(DocumentId(env))
      case Threw(message) => Outcome(Response(500, ErrorBody(message)), None)
      case Ok(doc) =>
        match ChooseSheet(doc)
        case None => Outcome(Response(500, ErrorBody(NoSheetMessage)), None)
        case Some(k) =>
          match addRowError
          case Some(message) => Outcome(Response(500, ErrorBody(message)), None)
          case None => Outcome(Response(200, SuccessBody), Some(AddRow(doc, k, HeaderCells(RowFor(req.body, timestamp)))))
  }

  /** A successful call adds exactly one row to the whole document. */
  function RowCount(sheets: seq<Sheet>): nat
    decreases |sheets|
  {
    if |sheets| == 0 then 0 else |sheets[0].rows| + RowCount(sheets[1..])
  }

  lemma {:induction false} AddRowCount(sheets: seq<Sheet>, k: nat, row: Row)
    requires k < |sheets|
    ensures RowCount(Document(sheets).sheets[k := sheets[k].(rows := sheets[k].rows + [row])]) == RowCount(sheets) + 1
    decreases |sheets|
  {
    var after := sheets[k := sheets[k].(rows := sheets[k].rows + [row])];
    if k == 0 {
      assert after[1..] == sheets[1..];
    } else {
      AddRowCount(sheets[1..], k - 1, row);
      assert after[1..] == sheets[1..][k - 1 := sheets[k].(rows := sheets[k].rows + [row])];
    }
  }

  /** Each successful call grows the mirror by one row; a failed call leaves it alone. */
  lemma SuccessAddsOneRow(req: Request, env: Env, load: string -> Fallible<Document>, timestamp: string,
                          addRowError: Option<string>)
    ensures var r := Handle(req, env, load, timestamp, addRowError);
      r.written.Some? ==> RowCount(r.written.value.sheets) == RowCount(load(DocumentId(env)).value.sheets) + 1
  {
    var r := Handle(req, env, load, timestamp, addRowError);
    if r.written.Some? {
      var doc := load(DocumentId(env)).value;
      var k := ChooseSheet(doc).value;
      AddRowCount(doc.sheets, k, UnderHeaders(HeaderCells(RowFor(req.body, timestamp)), doc.sheets[k].headers));
    }
  }
  /** The body posted for a save carries the saved device's fields. */
  lemma SaveBody(st: Storage, frtu: Frtu, isNew: bool, technicianName: string, stamp: Stamp)
    ensures var log := SaveFrtu(st, frtu, isNew, technicianName, stamp).posted.value;
      BodyOf(log) == LogBody(Some(technicianName), Some(frtu.serialNumber),
                             Some(ActionName(if isNew then Create else Update)), Some(log.details),
                             frtu.eventDetails, frtu.phosData, frtu.phboData, Some(StatusName(frtu.status)))
  {
  }

  /** The mirror row of a save carries the device's status, annotations and serial next to
      the action and the officer. */
  lemma SavedDeviceReachesSheet(st: Storage, frtu: Frtu, isNew: bool, technicianName: string, stamp: Stamp,
                                timestamp: string)
    ensures var row := RowFor(BodyOf(SaveFrtu(st, frtu, isNew, technicianName, stamp).posted.value), timestamp);
      && row.status == StatusName(frtu.status)
      && row.action == ActionName(if isNew then Create else Update)
      && row.officer == OrDash(Some(technicianName))
      && row.remoteUnitName == OrDash(Some(frtu.serialNumber))
      && row.eventDetails == OrDash(frtu.eventDetails)
      && row.phosData == OrDash(frtu.phosData)
      && row.phboData == OrDash(frtu.phboData)
  {
    SaveBody(st, frtu, isNew, technicianName, stamp);
    assert StatusName(frtu.status) != "" && ActionName(if isNew then Create else Update) != "";
  }

  /** Delete and status-change entries carry no device fields, so their mirror rows hold a
      dash under the event, PHOS, PHBO and status columns, whatever the device held. */
  lemma NonSaveRowsHaveNoDeviceData(log: HistoryLog, timestamp: string)
    requires log.snapshot.None?
    ensures var row := RowFor(BodyOf(log), timestamp);
      row.eventDetails == "-" && row.phosData == "-" && row.phboData == "-" && row.status == "-"
  {
  }
}

=== FILE: optional.dfy ===
/** Small failure-carrying datatypes shared by the whole model. */
module Optional {

  /** A value that may be absent: `undefined`, a missing storage key, a missing map entry. */
  datatype Option<+T> = None | Some(value: T) {

    /** The wrapped value, or `default` when absent. */
    function GetOr(default: T): T {
      match this
      case Some(v) => v
      case None => default
    }
  }

  /** The outcome of a call into code outside the model that may throw: either its value,
      or the message of the error it threw. */
  datatype Fallible<+T> = Ok(value: T) | Threw(message: string)
}

=== FILE: spreadsheet.dfy ===
/** The part of the remote spreadsheet service the endpoints touch: a document of sheets,
    each with a numeric id, a title, the header row and rows of header-keyed cells. */
module Spreadsheet {
  import opened Optional

  /** One row, as `row.get(header)` sees it: the cells keyed by their column header. */
  type Row = map<string, string>

  /** A sheet; `headers` is its first row, the column headers rows are keyed by. */
  datatype Sheet = Sheet(sheetId: nat, title: string, headers: seq<string>, rows: seq<Row>)

  datatype Document = Document(sheets: seq<Sheet>)

  /** The position of the first sheet satisfying `p`. */
  function FindSheet(sheets: seq<Sheet>, p: Sheet -> bool): (r: Option<nat>)
    ensures r.None? <==> forall i :: 0 <= i < |sheets| ==> !p(sheets[i])
    ensures r.Some? ==> r.value < |sheets| && p(sheets[r.value])
    ensures r.Some? ==> forall j :: 0 <= j < r.value ==> !p(sheets[j])
    decreases |sheets|
  {
    if |sheets| == 0 then None
    else if p(sheets[0]) then Some(0)
    else
      match FindSheet(sheets[1..], p)
      case None => None
      case Some(k) => Some(k + 1)
  }

  /** `doc.sheetsByTitle[title]`, as a position. A spreadsheet's titles are distinct, so the
      first sheet with the title is the only one. */
  function SheetByTitle(doc: Document, title: string): Option<nat> {
    FindSheet(doc.sheets, (s: Sheet) => s.title == title)
  }

  /** `doc.sheetsById[id]`, as a position. */
  function SheetById(doc: Document, id: nat): Option<nat> {
    FindSheet(doc.sheets, (s: Sheet) => s.sheetId == id)
  }

  /** `row.get(header)`: the cell, or `undefined` when the row has none under that header. */
  function Cell(row: Row, header: string): (r: Option<string>)
    ensures r.Some? <==> header in row
    ensures r.Some? ==> r.value == row[header]
  {
    if header in row then Some(row[header]) else None
  }

  /** The values of `row` the sheet has a column for: a value under a header the header row
      lacks has nowhere to go. */
  function UnderHeaders(row: Row, headers: seq<string>): (r: Row)
    ensures forall h :: h in r <==> h in row && h in headers
    ensures forall h :: h in r ==> r[h] == row[h]
  {
    map h | h in row.Keys && h in headers :: row[h]
  }

  /** `sheet.addRow(values)` on the sheet at position `k`: the values under the sheet's
      column headers are added as a row below the others in that sheet, and values under
      any other key are dropped; every other sheet, and the sheet's id, title and header row,
      stay as they were. */
  function AddRow(doc: Document, k: nat, row: Row): (r: Document)
    requires k < |doc.sheets|
    ensures |r.sheets| == |doc.sheets|
    ensures r.sheets[k].rows == doc.sheets[k].rows + [UnderHeaders(row, doc.sheets[k].headers)]
    ensures r.sheets[k].sheetId == doc.sheets[k].sheetId && r.sheets[k].title == doc.sheets[k].title
    ensures r.sheets[k].headers == doc.sheets[k].headers
    ensures forall i :: 0 <= i < |doc.sheets| && i != k ==> r.sheets[i] == doc.sheets[i]
  {
    var sheet := doc.sheets[k];
    Document(doc.sheets[k := sheet.(rows := sheet.rows + [UnderHeaders(row, sheet.headers)])])
  }
}

=== FILE: storage_service.dfy ===
/** The client-side record store (services/storageService.ts): the device list and the audit
    log kept in local storage, the mutations that rewrite them and write one audit entry each,
    the technician directory with its fallback cache, and the text of the CSV report.

    Local storage is a value of `Storage`; every operation is a pure function from the store
    (and its arguments) to the new store. The id and ISO time the source reads from the clock
    come in as a `Stamp`. The fire-and-forget POST of each new log entry to the spreadsheet
    endpoint is the `posted` part of a `Mutation`: nothing the network does can change the
    store. */
module StorageService {
  import opened Optional
  import opened Strings
  import opened Lists
  import opened Types
  import opened Csv

  /** The three local-storage keys; `None` while a key has never been written. */
  datatype Storage = Storage(
    frtuSlot: Option<seq<Frtu>>,
    logSlot: Option<seq<HistoryLog>>,
    employeeSlot: Option<seq<string>>)

  /** A read that may also write (the seeding reads). */
  datatype Read<T> = Read(store: Storage, value: T)

  /** `Date.now().toString()` and `new Date().toISOString()` at the time of a mutation. */
  datatype Stamp = Stamp(logId: string, isoTime: string)

  /** The store after a mutation, and the log entry forwarded to the spreadsheet endpoint,
      if the mutation wrote one. */
  datatype Mutation = Mutation(store: Storage, posted: Option<HistoryLog>)

  /** `getFRTUs`: an empty device slot is seeded with the sample devices, which are written
      and returned; otherwise the stored list is returned and nothing is written. Either way
      the slot afterwards holds exactly the list returned. */
  function GetFrtus(st: Storage): (r: Read<seq<Frtu>>)
    ensures r.store.frtuSlot == Some(r.value)
    ensures r.store.logSlot == st.logSlot && r.store.employeeSlot == st.employeeSlot
    ensures st.frtuSlot.None? ==> r.value == InitialFrtus
    ensures st.frtuSlot.Some? ==> r.store == st
  {
    match st.frtuSlot
    case None => Read(st.(frtuSlot := Some(InitialFrtus)), InitialFrtus)
    case Some(devices) => Read(st, devices)
  }

  /** Seeding happens once: reading again returns the same list and writes nothing. */
  lemma GetFrtusStable(st: Storage)
    ensures GetFrtus(GetFrtus(st).store) == GetFrtus(st)
  {
  }

  /** `getLogs`: the stored log, or no entries when the slot is empty (nothing is seeded). */
  function GetLogs(st: Storage): (r: seq<HistoryLog>)
    ensures st.logSlot.None? ==> r == []
    ensures st.logSlot.Some? ==> r == st.logSlot.value
  {
    st.logSlot.GetOr([])
  }

  /** `saveLog`: the entry goes in front of the stored log, newest first, and is forwarded
      to the spreadsheet endpoint. */
  function SaveLog(st: Storage, log: HistoryLog): (m: Mutation)
    ensures GetLogs(m.store) == [log] + GetLogs(st)
    ensures m.store.frtuSlot == st.frtuSlot && m.store.employeeSlot == st.employeeSlot
    ensures m.posted == Some(log)
  {
    Mutation(st.(logSlot := Some([log] + GetLogs(st))), Some(log))
  }

  /** The mutation wrote exactly one log entry: the one it forwarded, now first in the log,
      with every older entry after it in its old order. */
  predicate LoggedOnce(before: Storage, m: Mutation) {
    m.posted.Some? && GetLogs(m.store) == [m.posted.value] + GetLogs(before)
  }

  /** The device fields a save copies into its log entry. */
  function SnapshotOf(d: Frtu): (s: Snapshot)
    ensures s.substation == d.substation && s.feeder == d.feeder && s.location == d.location
    ensures s.eventDetails == d.eventDetails && s.status == d.status
    ensures s.phosData == d.phosData && s.phboData == d.phboData
  {
    Snapshot(d.substation, d.feeder, d.location, d.eventDetails, d.status, d.phosData, d.phboData)
  }

  /** `frtus.map(f => f.id === frtu.id ? frtu : f)`: every device with the saved device's id
      is replaced by it, every other device stays, and the list keeps its length and ids. */
  function ReplaceById(devices: seq<Frtu>, frtu: Frtu): (r: seq<Frtu>)
    ensures |r| == |devices| && Ids(r) == Ids(devices)
    ensures forall i :: 0 <= i < |devices| && devices[i].id == frtu.id ==> r[i] == frtu
    ensures forall i :: 0 <= i < |devices| && devices[i].id != frtu.id ==> r[i] == devices[i]
    ensures (forall i :: 0 <= i < |devices| ==> devices[i].id != frtu.id) ==> r == devices
  {
    seq(|devices|, i requires 0 <= i < |devices| => if devices[i].id == frtu.id then frtu else devices[i])
  }

  /** The details text of a save: names the saved serial. */
  function SaveDetails(isNew: bool, serial: string): (r: string)
    ensures Contains(r, serial)
  {
    var prefix := if isNew then "เพิ่มอุปกรณ์ใหม่ " else "แก้ไขข้อมูล ";
    ContainsSuffix(prefix, serial);
    prefix + serial
  }

  /** `saveFRTU`: a new device is appended; an edited one replaces every device with its id
      (a list without that id is left as it was). In both cases exactly one log entry is
      written, tagged Create exactly when the device is new, naming its serial, and carrying
      a snapshot of the saved device's fields. */
  function SaveFrtu(st: Storage, frtu: Frtu, isNew: bool, technicianName: string, stamp: Stamp): (m: Mutation)
    ensures isNew ==> m.store.frtuSlot == Some(GetFrtus(st).value + [frtu])
    ensures !isNew ==> m.store.frtuSlot == Some(ReplaceById(GetFrtus(st).value, frtu))
    ensures m.store.employeeSlot == st.employeeSlot
    ensures LoggedOnce(st, m)
    ensures m.posted.value.action == (if isNew then Create else Update)
    ensures m.posted.value.frtuId == frtu.id && m.posted.value.frtuSerial == frtu.serialNumber
    ensures Contains(m.posted.value.details, frtu.serialNumber)
    ensures m.posted.value.officerName == technicianName
    ensures m.posted.value.id == stamp.logId && m.posted.value.timestamp == stamp.isoTime
    ensures m.posted.value.snapshot == Some(SnapshotOf(frtu))
  {
    var read := GetFrtus(st);
    var updated := if isNew then read.value + [frtu] else ReplaceById(read.value, frtu);
    var log := HistoryLog(stamp.logId, frtu.id, frtu.serialNumber, if isNew then Create else Update,
                          SaveDetails(isNew, frtu.serialNumber), technicianName, stamp.isoTime,
                          Some(SnapshotOf(frtu)));
    SaveLog(read.store.(frtuSlot := Some(updated)), log)
  }

  /** `frtus.filter(f => f.id !== id)`: exactly the devices with another id, in their
      original order and each as often as it was listed; a list without that id is left as
      it was. */
  function WithoutId(devices: seq<Frtu>, id: string): (r: seq<Frtu>)
    ensures forall f :: f in r <==> f in devices && f.id != id
    ensures forall f :: multiset(r)[f] == if f.id != id then multiset(devices)[f] else 0
    ensures IsSubsequence(r, devices)
    ensures (forall i :: 0 <= i < |devices| ==> devices[i].id != id) ==> r == devices
  {
    var keep := (f: Frtu) => f.id != id;
    FilterIsSubsequence(keep, devices);
    if forall i :: 0 <= i < |devices| ==> devices[i].id != id then
      FilterKeepsAll(keep, devices);
      Filter(keep, devices)
    else
      Filter(keep, devices)
  }

  /** The details text of a delete: ends with the serial passed in. */
  function DeleteDetails(serial: string): (r: string)
    ensures Contains(r, serial)
    ensures |serial| < |r| && r[|r| - |serial|..] == serial
  {
    ContainsSuffix("ลบอุปกรณ์ ", serial);
    "ลบอุปกรณ์ " + serial
  }

  /** `deleteFRTU`: removes every device with the id and always writes one Delete entry
      carrying the id and serial passed in, even when no device was removed. */
  function DeleteFrtu(st: Storage, id: string, serial: string, technicianName: string, stamp: Stamp): (m: Mutation)
    ensures m.store.frtuSlot == Some(WithoutId(GetFrtus(st).value, id))
    ensures m.store.employeeSlot == st.employeeSlot
    ensures LoggedOnce(st, m)
    ensures m.posted.value.action == Delete
    ensures m.posted.value.frtuId == id && m.posted.value.frtuSerial == serial
    ensures Contains(m.posted.value.details, serial)
    ensures m.posted.value.officerName == technicianName
    ensures m.posted.value.id == stamp.logId && m.posted.value.timestamp == stamp.isoTime
    ensures m.posted.value.snapshot.None?
  {
    var read := GetFrtus(st);
    var log := HistoryLog(stamp.logId, id, serial, Delete, DeleteDetails(serial), technicianName,
                          stamp.isoTime, None);
    SaveLog(read.store.(frtuSlot := Some(WithoutId(read.value, id))), log)
  }

  /** `frtus.find(f => f.id === id)`, as the position of the device it returns: the first
      device with the id, or `None` when there is none. */
  function FindById(devices: seq<Frtu>, id: string): (r: Option<nat>)
    ensures r.None? <==> forall i :: 0 <= i < |devices| ==> devices[i].id != id
    ensures r.Some? ==> r.value < |devices| && devices[r.value].id == id
    ensures r.Some? ==> forall j :: 0 <= j < r.value ==> devices[j].id != id
    decreases |devices|
  {
    if |devices| == 0 then None
    else if devices[0].id == id then Some(0)
    else
      match FindById(devices[1..], id)
      case None => None
      case Some(k) => Some(k + 1)
  }

  /** `frtus.map(f => f.id === id ? { ...f, status } : f)`: devices with the id get the new
      status and keep every other field; all other devices are untouched. */
  function SetStatusById(devices: seq<Frtu>, id: string, status: FrtuStatus): (r: seq<Frtu>)
    ensures |r| == |devices| && Ids(r) == Ids(devices)
    ensures forall i :: 0 <= i < |devices| && devices[i].id == id ==>
      r[i].status == status && r[i].(status := devices[i].status) == devices[i]
    ensures forall i :: 0 <= i < |devices| && devices[i].id != id ==> r[i] == devices[i]
  {
    seq(|devices|, i requires 0 <= i < |devices| => if devices[i].id == id then devices[i].(status := status) else devices[i])
  }

  /** The details text of a status change: names the old and the new status. */
  function StatusDetails(oldStatus: FrtuStatus, newStatus: FrtuStatus): (r: string)
    ensures Contains(r, StatusName(oldStatus)) && Contains(r, StatusName(newStatus))
  {
    ContainsBoth("เปลี่ยนสถานะจาก ", StatusName(oldStatus), " เป็น ", StatusName(newStatus));
    "เปลี่ยนสถานะจาก " + StatusName(oldStatus) + " เป็น " + StatusName(newStatus)
  }

  /** `updateStatus`: when no device has the id, nothing is logged and the store is only
      what the read left (the seed, if the device slot was empty). Otherwise only the status
      of the devices with the id changes, and exactly one StatusChange entry is written,
      carrying the serial of the first such device and naming its old and the new status. */
  function UpdateStatus(st: Storage, id: string, status: FrtuStatus, technicianName: string, stamp: Stamp): (m: Mutation)
    ensures FindById(GetFrtus(st).value, id).None? ==> m == Mutation(GetFrtus(st).store, None)
    ensures FindById(GetFrtus(st).value, id).Some? ==>
      var target := GetFrtus(st).value[FindById(GetFrtus(st).value, id).value];
      && m.store.frtuSlot == Some(SetStatusById(GetFrtus(st).value, id, status))
      && m.store.employeeSlot == st.employeeSlot
      && LoggedOnce(st, m)
      && m.posted.value.action == StatusChange
      && m.posted.value.frtuId == id && m.posted.value.frtuSerial == target.serialNumber
      && Contains(m.posted.value.details, StatusName(target.status))
      && Contains(m.posted.value.details, StatusName(status))
      && m.posted.value.officerName == technicianName
      && m.posted.value.id == stamp.logId && m.posted.value.timestamp == stamp.isoTime
      && m.posted.value.snapshot.None?
  {
    var read := GetFrtus(st);
    match FindById(read.value, id)
    case None => Mutation(read.store, None)
    case Some(k) =>
      var target := read.value[k];
      var log := HistoryLog(stamp.logId, id, target.serialNumber, StatusChange,
                            StatusDetails(target.status, status), technicianName, stamp.isoTime, None);
      SaveLog(read.store.(frtuSlot := Some(SetStatusById(read.value, id, status))), log)
  }

  // ---------------------------------------------------------------------------------------
  // Technician directory

  /** `INITIAL_EMPLOYEES`: the built-in directory used when nothing was ever fetched. */
  const InitialEmployees: seq<string> := [
    "นายสมชาย ใจดี", "นายวิชัย รักงาน", "นายสมศักดิ์ ช่างไฟ", "นางสาวมานี มีใจ", "นายชูใจ ใฝ่ดี"
  ]

  /** The JSON a directory response carried. */
  datatype DirectoryBody = NameArray(names: seq<string>) | OtherJson

  /** What `fetch('/api/get-employees')` and `response.json()` produced: a failure (network
      error or unreadable JSON, both caught), or a response with its `ok` flag and body. */
  datatype DirectoryFetch = FetchFailed | Fetched(ok: bool, body: DirectoryBody)

  /** The remote answer is taken only when it is a successful, non-empty array. */
  predicate UsableDirectory(f: DirectoryFetch) {
    f.Fetched? && f.ok && f.body.NameArray? && |f.body.names| > 0
  }

  /** `getEmployees`: a usable remote list is cached and returned; otherwise the cached list
      is returned; with no cache either, the built-in list is cached and returned. Whatever is
      returned is what the cache holds afterwards, and the other slots are untouched. */
  function GetEmployees(st: Storage, fetch: DirectoryFetch): (r: Read<seq<string>>)
    ensures UsableDirectory(fetch) ==> r.value == fetch.body.names
    ensures !UsableDirectory(fetch) && st.employeeSlot.Some? ==> r == Read(st, st.employeeSlot.value)
    ensures !UsableDirectory(fetch) && st.employeeSlot.None? ==> r.value == InitialEmployees
    ensures r.store.employeeSlot == Some(r.value)
    ensures r.store.frtuSlot == st.frtuSlot && r.store.logSlot == st.logSlot
  {
    if UsableDirectory(fetch) then
      Read(st.(employeeSlot := Some(fetch.body.names)), fetch.body.names)
    else
      match st.employeeSlot
      case Some(cached) => Read(st, cached)
      case None => Read(st.(employeeSlot := Some(InitialEmployees)), InitialEmployees)
  }

  /** After a successful fetch, a later failing one returns the list that succeeded. */
  lemma DirectoryFallsBackToLastSuccess(st: Storage, good: DirectoryFetch, bad: DirectoryFetch)
    requires UsableDirectory(good) && !UsableDirectory(bad)
    ensures GetEmployees(GetEmployees(st, good).store, bad).value == good.body.names
  {
  }

  /** The directory cache only ever holds a non-empty list, so the technician picker is
      never empty: this holds of the empty store and every resolution keeps it. */
  lemma DirectoryNeverEmpty(st: Storage, fetch: DirectoryFetch)
    requires st.employeeSlot.Some? ==> |st.employeeSlot.value| > 0
    ensures |GetEmployees(st, fetch).value| > 0
    ensures |GetEmployees(st, fetch).store.employeeSlot.value| > 0
  {
  }

  // ---------------------------------------------------------------------------------------
  // CSV report

  /** The byte-order mark put in front of the report. */
  const Bom: char := '\U{FEFF}'

  const CsvHeader: seq<string> := ["Date", "Officer", "Serial", "Action", "Details", "PHOS Data", "PHBO Data"]

  /** `x || ''` on an optional text field. */
  function OrEmpty(o: Option<string>): string {
    o.GetOr("")
  }

  /** The PHOS and PHBO annotations an entry carries (only entries written by a save have
      them). */
  function PhosOf(log: HistoryLog): Option<string> {
    if log.snapshot.Some? then log.snapshot.value.phosData else None
  }

  function PhboOf(log: HistoryLog): Option<string> {
    if log.snapshot.Some? then log.snapshot.value.phboData else None
  }

  /** One report line, as the template literal `"${date}","${officer}",...` builds it: seven
      cells, each between double quotes, separated by commas, of which only details, PHOS and
      PHBO have their quotes doubled: the date, officer and serial appear between quotes
      exactly as they are. The formatted date is an input. */
  function CsvRow(log: HistoryLog, formatDate: string -> string): (r: string)
    ensures Contains(r, Enclose(formatDate(log.timestamp)))
    ensures Contains(r, Enclose(log.officerName)) && Contains(r, Enclose(log.frtuSerial))
    ensures Contains(r, Enclose(EscapeQuotes(log.details)))
  {
    var cells := [Enclose(formatDate(log.timestamp)), Enclose(log.officerName), Enclose(log.frtuSerial),
                  Enclose(ActionName(log.action)), Enclose(EscapeQuotes(log.details)),
                  Enclose(EscapeQuotes(OrEmpty(PhosOf(log)))), Enclose(EscapeQuotes(OrEmpty(PhboOf(log))))];
    JoinContainsPart(cells, ",", 0);
    JoinContainsPart(cells, ",", 1);
    JoinContainsPart(cells, ",", 2);
    JoinContainsPart(cells, ",", 4);
    Join(cells, ",")
  }

  function CsvRows(logs: seq<HistoryLog>, formatDate: string -> string): (r: seq<string>)
    ensures |r| == |logs|
    ensures forall i :: 0 <= i < |logs| ==> r[i] == CsvRow(logs[i], formatDate)
  {
    seq(|logs|, i requires 0 <= i < |logs| => CsvRow(logs[i], formatDate))
  }

  /** `exportToCSV`, up to the text handed to the download: nothing when the log is empty,
      otherwise the byte-order mark followed by the report. */
  function ExportToCsv(st: Storage, formatDate: string -> string): (r: Option<string>)
    ensures r.None? <==> GetLogs(st) == []
    ensures r.Some? ==> |r.value| > 0 && r.value[0] == Bom
  {
    var logs := GetLogs(st);
    if |logs| == 0 then None
    else Some([Bom] + Join([Join(CsvHeader, ",")] + CsvRows(logs, formatDate), "\n"))
  }

  /** The values the report line of an entry is meant to carry, in column order. */
  function RowCells(log: HistoryLog, formatDate: string -> string): seq<string> {
    [formatDate(log.timestamp), log.officerName, log.frtuSerial, ActionName(log.action),
     log.details, OrEmpty(PhosOf(log)), OrEmpty(PhboOf(log))]
  }

  function QuotedFields(cells: seq<string>): (r: seq<Field>)
    ensures |r| == |cells|
    ensures forall i :: 0 <= i < |cells| ==> r[i] == Quoted(cells[i])
  {
    seq(|cells|, i requires 0 <= i < |cells| => Quoted(cells[i]))
  }

  predicate QuoteFree(s: string) {
    '"' !in s
  }

  /** The cells the source writes without escaping are free of quotes. */
  predicate UnescapedCellsQuoteFree(log: HistoryLog, formatDate: string -> string) {
    QuoteFree(formatDate(log.timestamp)) && QuoteFree(log.officerName) && QuoteFree(log.frtuSerial)
  }

  function BareFields(cells: seq<string>): (r: seq<Field>)
    ensures |r| == |cells|
    ensures forall i :: 0 <= i < |cells| ==> r[i] == Bare(cells[i])
  {
    seq(|cells|, i requires 0 <= i < |cells| => Bare(cells[i]))
  }

  /** Bare fields encode to their own text. */
  lemma BareFieldsEncodeToThemselves(cells: seq<string>)
    ensures EncodeFields(BareFields(cells)) == cells
  {
  }

  /** The header line is a record of bare fields. */
  lemma HeaderIsRecord()
    ensures Join(CsvHeader, ",") == EncodeRecord(BareFields(CsvHeader))
  {
    BareFieldsEncodeToThemselves(CsvHeader);
  }

  /** Header names hold no comma, newline or quote, so they can be read back. */
  lemma HeaderFieldsOk()
    ensures forall i :: 0 <= i < |CsvHeader| ==> FieldOk(BareFields(CsvHeader)[i])
  {
    forall i | 0 <= i < |CsvHeader|
      ensures FieldOk(Bare(CsvHeader[i]))
    {
      PlainHeader(i);
    }
  }

  /** Each header name makes a readable bare field. */
  lemma PlainHeader(i: nat)
    requires i < |CsvHeader|
    ensures FieldOk(Bare(CsvHeader[i]))
  {
    if i == 0 { PlainName("Date"); }
    else if i == 1 { PlainName("Officer"); }
    else if i == 2 { PlainName("Serial"); }
    else if i == 3 { PlainName("Action"); }
    else if i == 4 { PlainName("Details"); }
    else if i == 5 { PlainName("PHOS Data"); }
    else { PlainName("PHBO Data"); }
  }

  /** A name made of letters and spaces only makes a readable bare field. */
  lemma PlainName(s: string)
    requires forall k :: 0 <= k < |s| ==> s[k] == ' ' || 'A' <= s[k] <= 'Z' || 'a' <= s[k] <= 'z'
    ensures FieldOk(Bare(s))
  {
  }

  /** When the unescaped cells hold no quote, a report line is exactly the standard
      encoding of its seven cells, all quoted. */
  lemma CsvRowIsRecord(log: HistoryLog, formatDate: string -> string)
    requires UnescapedCellsQuoteFree(log, formatDate)
    ensures CsvRow(log, formatDate) == EncodeRecord(QuotedFields(RowCells(log, formatDate)))
  {
    ActionEnumeration();
    var cells := RowCells(log, formatDate);
    var written := [Enclose(cells[0]), Enclose(cells[1]), Enclose(cells[2]), Enclose(cells[3]),
                    Enclose(EscapeQuotes(cells[4])), Enclose(EscapeQuotes(cells[5])), Enclose(EscapeQuotes(cells[6]))];
    assert forall k :: 0 <= k < 4 ==> EscapeQuotes(cells[k]) == cells[k];
    assert written == EscapedCells(cells);
    CsvRowEscapedIsRecord(log, formatDate);
  }

  /** The report as records: the bare header, then one quoted record per entry. */
  function ReportRecords(logs: seq<HistoryLog>, formatDate: string -> string): (r: seq<seq<Field>>)
    ensures |r| == |logs| + 1
    ensures r[0] == BareFields(CsvHeader)
    ensures forall i :: 0 <= i < |logs| ==> r[i + 1] == QuotedFields(RowCells(logs[i], formatDate))
  {
    [BareFields(CsvHeader)] + seq(|logs|, i requires 0 <= i < |logs| => QuotedFields(RowCells(logs[i], formatDate)))
  }

  /** The values the report is meant to carry: the header names, then each entry's cells. */
  function ReportCells(logs: seq<HistoryLog>, formatDate: string -> string): (r: seq<seq<string>>)
    ensures |r| == |logs| + 1
    ensures r[0] == CsvHeader
    ensures forall i :: 0 <= i < |logs| ==> r[i + 1] == RowCells(logs[i], formatDate)
  {
    [CsvHeader] + seq(|logs|, i requires 0 <= i < |logs| => RowCells(logs[i], formatDate))
  }

  /** Report lines that are each the standard encoding of their entry's cells, under the
      header line, are the encodings of the report's records. */
  lemma ReportRecordsEncodeToLines(logs: seq<HistoryLog>, formatDate: string -> string, lines: seq<string>)
    requires |lines| == |logs|
    requires forall i :: 0 <= i < |logs| ==> lines[i] == EncodeRecord(QuotedFields(RowCells(logs[i], formatDate)))
    ensures EncodeRecords(ReportRecords(logs, formatDate)) == [Join(CsvHeader, ",")] + lines
  {
    var records := ReportRecords(logs, formatDate);
    var all := [Join(CsvHeader, ",")] + lines;
    HeaderIsRecord();
    assert EncodeRecords(records)[0] == all[0];
    forall k | 1 <= k < |all|
      ensures EncodeRecords(records)[k] == all[k]
    {
      assert all[k] == lines[k - 1];
      assert records[k] == QuotedFields(RowCells(logs[k - 1], formatDate));
    }
  }

  /** Such lines, joined under the header, are the standard encoding of the report. */
  lemma ReportIsDocument(logs: seq<HistoryLog>, formatDate: string -> string, lines: seq<string>)
    requires |lines| == |logs|
    requires forall i :: 0 <= i < |logs| ==> lines[i] == EncodeRecord(QuotedFields(RowCells(logs[i], formatDate)))
    ensures Join([Join(CsvHeader, ",")] + lines, "\n") == EncodeDocument(ReportRecords(logs, formatDate))
  {
    ReportRecordsEncodeToLines(logs, formatDate, lines);
  }

  /** The values read back from the report's records are the report's cells. */
  lemma ReportRecordsCarryCells(logs: seq<HistoryLog>, formatDate: string -> string)
    ensures AllTexts(ReportRecords(logs, formatDate)) == ReportCells(logs, formatDate)
  {
    var records := ReportRecords(logs, formatDate);
    var cells := ReportCells(logs, formatDate);
    var texts := AllTexts(records);
    assert texts[0] == cells[0] by {
      BareFieldsCarryCells(CsvHeader);
    }
    forall k | 1 <= k < |records|
      ensures texts[k] == cells[k]
    {
      var cs := RowCells(logs[k - 1], formatDate);
      assert records[k] == QuotedFields(cs);
      QuotedFieldsCarryCells(cs);
    }
  }

  /** Quoted fields carry the cells they were built from. */
  lemma QuotedFieldsCarryCells(cells: seq<string>)
    ensures Texts(QuotedFields(cells)) == cells
  {
    TextsOfFields(QuotedFields(cells), cells);
  }

  /** Bare fields carry the cells they were built from. */
  lemma BareFieldsCarryCells(cells: seq<string>)
    ensures Texts(BareFields(cells)) == cells
  {
    TextsOfFields(BareFields(cells), cells);
  }

  /** Fields built from cells carry those cells. */
  lemma TextsOfFields(fs: seq<Field>, cells: seq<string>)
    requires |fs| == |cells|
    requires forall i :: 0 <= i < |fs| ==> fs[i].text == cells[i]
    ensures Texts(fs) == cells
  {
  }

  /** Every field of the report's records can be read back. */
  lemma ReportFieldsOk(logs: seq<HistoryLog>, formatDate: string -> string)
    ensures AllFieldsOk(ReportRecords(logs, formatDate))
  {
    var records := ReportRecords(logs, formatDate);
    HeaderFieldsOk();
    forall k, i | 0 <= k < |records| && 0 <= i < |records[k]|
      ensures FieldOk(records[k][i])
    {
      if k > 0 {
        assert records[k][i].Quoted?;
      }
    }
  }

  /** After the byte-order mark, a non-empty export is the header line and the report lines
      joined by newlines. */
  lemma ExportBody(st: Storage, formatDate: string -> string)
    requires GetLogs(st) != []
    ensures ExportToCsv(st, formatDate).Some?
    ensures ExportToCsv(st, formatDate).value[1..] == Join([Join(CsvHeader, ",")] + CsvRows(GetLogs(st), formatDate), "\n")
  {
    var body := Join([Join(CsvHeader, ",")] + CsvRows(GetLogs(st), formatDate), "\n");
    assert ([Bom] + body)[1..] == body;
  }

  /** Under the header, report lines that each encode their entry's cells read back as the
      header names followed by one record per entry, in order, with that entry's values. */
  lemma ReportReadsBack(logs: seq<HistoryLog>, formatDate: string -> string, lines: seq<string>)
    requires |lines| == |logs|
    requires forall i :: 0 <= i < |logs| ==> lines[i] == EncodeRecord(QuotedFields(RowCells(logs[i], formatDate)))
    ensures ParseDocument(Join([Join(CsvHeader, ",")] + lines, "\n")) == Some(ReportCells(logs, formatDate))
  {
    ReportIsDocument(logs, formatDate, lines);
    ReportRecordsRead(logs, formatDate);
  }

  /** The encoded report records read back as the report's cells. */
  lemma ReportRecordsRead(logs: seq<HistoryLog>, formatDate: string -> string)
    ensures ParseDocument(EncodeDocument(ReportRecords(logs, formatDate))) == Some(ReportCells(logs, formatDate))
  {
    var records := ReportRecords(logs, formatDate);
    assert forall k :: 0 <= k < |records| ==> |records[k]| >= 1;
    ReportFieldsOk(logs, formatDate);
    DocumentRoundTrip(records);
    ReportRecordsCarryCells(logs, formatDate);
  }

  /** Reading the report back: its body, after the byte-order mark, reads as the header
      followed by exactly one record per log entry, in log order, each holding that entry's
      values, quotes in details and annotations included. It needs the cells the source
      does not escape (date, officer, serial) to be free of quotes. */
  lemma ExportReadsBack(st: Storage, formatDate: string -> string)
    requires GetLogs(st) != []
    requires forall i :: 0 <= i < |GetLogs(st)| ==> UnescapedCellsQuoteFree(GetLogs(st)[i], formatDate)
    ensures ExportToCsv(st, formatDate).Some?
    ensures ParseDocument(ExportToCsv(st, formatDate).value[1..]) == Some(ReportCells(GetLogs(st), formatDate))
  {
    var logs := GetLogs(st);
    ExportBody(st, formatDate);
    forall i | 0 <= i < |logs|
      ensures CsvRows(logs, formatDate)[i] == EncodeRecord(QuotedFields(RowCells(logs[i], formatDate)))
    {
      CsvRowIsRecord(logs[i], formatDate);
    }
    ReportReadsBack(logs, formatDate, CsvRows(logs, formatDate));
  }
  // ---------------------------------------------------------------------------------------
  // The unescaped cells of the report

  /** A serial number holding a double quote, as a user may type it. */
  const QuotedSerial: string := "A\"B"

  /** A quote-free cell between quotes is read back as itself. */
  lemma EnclosedCellReadsBack(t: string, rest: string)
    requires QuoteFree(t)
    requires rest == "" || rest[0] == ',' || rest[0] == '\n'
    ensures ParseField(Enclose(t) + rest) == Some(Parsed(t, rest))
  {
    FieldRoundTrip(Quoted(t), rest);
  }

  /** The serial `A"B` written between quotes without doubling its quote ends its cell after
      `A`, and the `B` that follows is neither a comma nor a line end, so the line cannot be
      read. */
  lemma QuotedSerialCellUnreadable(z: string)
    ensures ParseRecord(Enclose(QuotedSerial) + "," + z) == None
  {
    var s := Enclose(QuotedSerial) + "," + z;
    var t := "B\"," + z;
    var u := "\"" + t;
    var v := ['A'] + u;
    assert u[0] == '"' && u[1] == 'B' && u[1..] == t;
    assert ParseQuotedBody(u) == Some(Parsed("", t));
    assert |v| > 0 && v[0] == 'A' && v[1..] == u;
    assert [v[0]] + "" == "A";
    assert ParseQuotedBody(v) == Some(Parsed("A", t));
    assert s[0] == '"' && s[1..] == v;
    assert ParseField(s) == Some(Parsed("A", t));
  }

  /** A quote-free cell between quotes, followed by a comma, does not change whether the rest
      of the line can be read. */
  lemma EnclosedCellThenUnreadable(t: string, rest: string)
    requires QuoteFree(t)
    requires ParseRecord(rest) == None
    ensures ParseRecord(Enclose(t) + "," + rest) == None
  {
    EnclosedCellReadsBack(t, "," + rest);
    assert Enclose(t) + "," + rest == Enclose(t) + ("," + rest);
    assert ("," + rest)[1..] == rest;
  }

  /** The first three cells of a report line, and the rest. */
  lemma CsvRowShape(log: HistoryLog, formatDate: string -> string)
    ensures CsvRow(log, formatDate)
      == Enclose(formatDate(log.timestamp)) + "," + (Enclose(log.officerName) + "," + (Enclose(log.frtuSerial) + ","
         + Join([Enclose(ActionName(log.action)), Enclose(EscapeQuotes(log.details)),
                 Enclose(EscapeQuotes(OrEmpty(PhosOf(log)))), Enclose(EscapeQuotes(OrEmpty(PhboOf(log))))], ",")))
  {
    var e := [Enclose(formatDate(log.timestamp)), Enclose(log.officerName), Enclose(log.frtuSerial),
              Enclose(ActionName(log.action)), Enclose(EscapeQuotes(log.details)),
              Enclose(EscapeQuotes(OrEmpty(PhosOf(log)))), Enclose(EscapeQuotes(OrEmpty(PhboOf(log))))];
    assert e[1..][1..] == e[2..] && e[2..][1..] == e[3..];
    assert Join(e, ",") == e[0] + "," + Join(e[1..], ",");
    assert Join(e[1..], ",") == e[1] + "," + Join(e[2..], ",");
    assert Join(e[2..], ",") == e[2] + "," + Join(e[3..], ",");
  }

  /** A report line whose serial is `A"B` cannot be read, whatever follows it (the date and
      officer cells before it being quote-free, as they are in practice). */
  lemma QuotedSerialLineUnreadable(log: HistoryLog, formatDate: string -> string, tail: string)
    requires QuoteFree(formatDate(log.timestamp)) && QuoteFree(log.officerName)
    requires log.frtuSerial == QuotedSerial
    ensures ParseRecord(CsvRow(log, formatDate) + tail) == None
  {
    var z := Join([Enclose(ActionName(log.action)), Enclose(EscapeQuotes(log.details)),
                   Enclose(EscapeQuotes(OrEmpty(PhosOf(log)))), Enclose(EscapeQuotes(OrEmpty(PhboOf(log))))], ",");
    var y := Enclose(log.frtuSerial) + "," + (z + tail);
    var x := Enclose(log.officerName) + "," + y;
    CsvRowShape(log, formatDate);
    assert CsvRow(log, formatDate) + tail == Enclose(formatDate(log.timestamp)) + "," + x;
    QuotedSerialCellUnreadable(z + tail);
    EnclosedCellThenUnreadable(log.officerName, y);
    EnclosedCellThenUnreadable(formatDate(log.timestamp), x);
  }

  /** As written, exporting a log whose newest entry has the serial `A"B` produces a report
      that no reader of the format accepts: the reader fails instead of returning the
      header and the entries. */
  lemma QuotedSerialBreaksReport(st: Storage, formatDate: string -> string)
    requires GetLogs(st) != []
    requires QuoteFree(formatDate(GetLogs(st)[0].timestamp)) && QuoteFree(GetLogs(st)[0].officerName)
    requires GetLogs(st)[0].frtuSerial == QuotedSerial
    ensures ExportToCsv(st, formatDate).Some?
    ensures ParseDocument(ExportToCsv(st, formatDate).value[1..]) == None
  {
    var logs := GetLogs(st);
    var rows := CsvRows(logs, formatDate);
    var header := Join(CsvHeader, ",");
    ExportBody(st, formatDate);
    JoinUnderHeader(header, rows);
    LinesUnreadable(logs, formatDate);
    HeaderThenUnreadable(Join(rows, "\n"));
  }

  /** Lines joined under a header: the header, a newline, then the lines joined. */
  lemma JoinUnderHeader(header: string, rows: seq<string>)
    requires rows != []
    ensures Join([header] + rows, "\n") == header + ("\n" + Join(rows, "\n"))
  {
    assert ([header] + rows)[1..] == rows;
  }

  /** Report lines whose first line has the serial `A"B` cannot be read. */
  lemma LinesUnreadable(logs: seq<HistoryLog>, formatDate: string -> string)
    requires logs != []
    requires QuoteFree(formatDate(logs[0].timestamp)) && QuoteFree(logs[0].officerName)
    requires logs[0].frtuSerial == QuotedSerial
    ensures ParseRecord(Join(CsvRows(logs, formatDate), "\n")) == None
  {
    var rows := CsvRows(logs, formatDate);
    var tail := if |rows| == 1 then "" else "\n" + Join(rows[1..], "\n");
    assert Join(rows, "\n") == rows[0] + tail;
    QuotedSerialLineUnreadable(logs[0], formatDate, tail);
  }

  /** Under the header line, text whose first record cannot be read makes the document
      unreadable. */
  lemma HeaderThenUnreadable(j: string)
    requires ParseRecord(j) == None
    ensures ParseDocument(Join(CsvHeader, ",") + ("\n" + j)) == None
  {
    HeaderLineReads(j);
    assert ("\n" + j)[1..] == j;
  }

  /** The header line reads back as the column names, stopping at the newline after it. */
  lemma HeaderLineReads(j: string)
    ensures ParseRecord(Join(CsvHeader, ",") + ("\n" + j)) == Some(Parsed(CsvHeader, "\n" + j))
  {
    HeaderIsRecord();
    HeaderFieldsOk();
    RecordRoundTrip(BareFields(CsvHeader), "\n" + j);
    TextsOfFields(BareFields(CsvHeader), CsvHeader);
  }

  /** Each cell with its quotes doubled, between quotes. */
  function EscapedCells(cells: seq<string>): (r: seq<string>)
    ensures |r| == |cells|
  {
    seq(|cells|, i requires 0 <= i < |cells| => Enclose(EscapeQuotes(cells[i])))
  }

  /** A report line with every cell's quotes doubled, as the format requires. */
  function CsvRowEscaped(log: HistoryLog, formatDate: string -> string): string {
    Join(EscapedCells(RowCells(log, formatDate)), ",")
  }

  /** The escaped line is the standard encoding of the entry's cells, whatever they hold. */
  lemma CsvRowEscapedIsRecord(log: HistoryLog, formatDate: string -> string)
    ensures CsvRowEscaped(log, formatDate) == EncodeRecord(QuotedFields(RowCells(log, formatDate)))
  {
    var cells := RowCells(log, formatDate);
    assert EscapedCells(cells) == EncodeFields(QuotedFields(cells));
  }

  function CsvRowsEscaped(logs: seq<HistoryLog>, formatDate: string -> string): (r: seq<string>)
    ensures |r| == |logs|
    ensures forall i :: 0 <= i < |logs| ==> r[i] == EncodeRecord(QuotedFields(RowCells(logs[i], formatDate)))
  {
    var r := seq(|logs|, i requires 0 <= i < |logs| => CsvRowEscaped(logs[i], formatDate));
    forall i | 0 <= i < |logs|
      ensures r[i] == EncodeRecord(QuotedFields(RowCells(logs[i], formatDate)))
    {
      CsvRowEscapedIsRecord(logs[i], formatDate);
    }
    r
  }

  /** The export with every cell escaped: nothing for an empty log, otherwise the byte-order
      mark and a report that reads back as the header and each entry's values, in log order,
      for every content of the log. */
  function ExportToCsvEscaped(st: Storage, formatDate: string -> string): (r: Option<string>)
    ensures r.None? <==> GetLogs(st) == []
    ensures r.Some? ==> |r.value| > 0 && r.value[0] == Bom
    ensures r.Some? ==> ParseDocument(r.value[1..]) == Some(ReportCells(GetLogs(st), formatDate))
  {
    var logs := GetLogs(st);
    if |logs| == 0 then None
    else
      var body := Join([Join(CsvHeader, ",")] + CsvRowsEscaped(logs, formatDate), "\n");
      ReportReadsBack(logs, formatDate, CsvRowsEscaped(logs, formatDate));
      assert ([Bom] + body)[1..] == body;
      Some([Bom] + body)
  }
}

=== FILE: strings.dfy ===
/** The few JavaScript string operations the core relies on, written out over `seq<char>`. */
module Strings {

  /** `s.includes(sub)`: some window of `s` is exactly `sub`. */
  predicate Contains(s: string, sub: string)
    decreases |s|
  {
    |sub| <= |s| && (s[..|sub|] == sub || (|s| > 0 && Contains(s[1..], sub)))
  }

  /** A string contains whatever sits between any prefix and suffix of it. */
  lemma {:induction false} ContainsInfix(prefix: string, sub: string, suffix: string)
    ensures Contains(prefix + sub + suffix, sub)
    decreases |prefix|
  {
    var s := prefix + sub + suffix;
    if |prefix| == 0 {
      assert s[..|sub|] == sub;
    } else {
      ContainsInfix(prefix[1..], sub, suffix);
      assert s[1..] == prefix[1..] + sub + suffix;
    }
  }

  /** A string contains its own suffix. */
  lemma ContainsSuffix(prefix: string, sub: string)
    ensures Contains(prefix + sub, sub)
  {
    ContainsInfix(prefix, sub, "");
    assert prefix + sub + "" == prefix + sub;
  }

  /** `a + x + b + y` contains both `x` and `y`. */
  lemma ContainsBoth(a: string, x: string, b: string, y: string)
    ensures Contains(a + x + b + y, x) && Contains(a + x + b + y, y)
  {
    ContainsInfix(a, x, b + y);
    assert a + x + (b + y) == a + x + b + y;
    ContainsSuffix(a + x + b, y);
  }

  /** Every string contains the empty string, so `x.includes('')` is always true. */
  lemma ContainsEmpty(s: string)
    ensures Contains(s, "")
  {
    assert s[..0] == "";
  }

  /** `parts.join(sep)`: the parts with `sep` between consecutive ones. */
  function Join(parts: seq<string>, sep: string): string
    decreases |parts|
  {
    if |parts| == 0 then ""
    else if |parts| == 1 then parts[0]
    else parts[0] + sep + Join(parts[1..], sep)
  }

  /** Text in front of a string keeps whatever the string contains. */
  lemma {:induction false} ContainsExtend(prefix: string, s: string, sub: string)
    requires Contains(s, sub)
    ensures Contains(prefix + s, sub)
    decreases |prefix|
  {
    if |prefix| == 0 {
      assert prefix + s == s;
    } else {
      ContainsExtend(prefix[1..], s, sub);
      assert (prefix + s)[1..] == prefix[1..] + s;
    }
  }

  /** A joined text contains each of its parts. */
  lemma {:induction false} JoinContainsPart(parts: seq<string>, sep: string, k: nat)
    requires k < |parts|
    ensures Contains(Join(parts, sep), parts[k])
    decreases |parts|
  {
    if k == 0 {
      var rest := if |parts| == 1 then "" else sep + Join(parts[1..], sep);
      assert Join(parts, sep) == "" + parts[0] + rest;
      ContainsInfix("", parts[0], rest);
    } else {
      JoinContainsPart(parts[1..], sep, k - 1);
      assert parts[1..][k - 1] == parts[k];
      ContainsExtend(parts[0] + sep, Join(parts[1..], sep), parts[k]);
    }
  }

  /** The character for a decimal digit. */
  function DigitChar(d: nat): (c: char)
    requires d < 10
    ensures IsDigit(c)
    ensures c as int - '0' as int == d
  {
    (('0' as int) + d) as char
  }

  predicate IsDigit(c: char) {
    '0' as int <= c as int <= '9' as int
  }

  /** The value of a string of decimal digits, most significant first. */
  function DecimalValue(s: string): nat
    requires forall i :: 0 <= i < |s| ==> IsDigit(s[i])
    decreases |s|
  {
    if |s| == 0 then 0
    else
      var last := s[|s| - 1];
      assert IsDigit(last);
      DecimalValue(s[..|s| - 1]) * 10 + (last as int - '0' as int)
  }

  /** `${n}` for a non-negative integer: its shortest decimal rendering. */
  function NatToString(n: nat): (r: string)
    ensures |r| > 0
    ensures forall i :: 0 <= i < |r| ==> IsDigit(r[i])
    ensures n >= 10 ==> r[0] != '0'
    decreases n
  {
    if n < 10 then [DigitChar(n)] else NatToString(n / 10) + [DigitChar(n % 10)]
  }

  /** Reading the rendered digits back gives the number again, so distinct counts never
      render to the same text. */
  lemma {:induction false} NatToStringRoundTrip(n: nat)
    ensures DecimalValue(NatToString(n)) == n
    decreases n
  {
    var r := NatToString(n);
    if n >= 10 {
      NatToStringRoundTrip(n / 10);
      assert r[..|r| - 1] == NatToString(n / 10);
    }
  }

  /** JavaScript's WhiteSpace and LineTerminator characters, the set `String.prototype.trim`
      removes. */
  predicate IsWhitespace(c: char) {
    || c == '\t' || c == '\U{000B}' || c == '\U{000C}' || c == ' ' || c == '\U{00A0}'
    || c == '\U{FEFF}' || c == '\n' || c == '\r' || c == '\U{2028}' || c == '\U{2029}'
    || c == '\U{1680}' || ('\U{2000}' <= c <= '\U{200A}') || c == '\U{202F}'
    || c == '\U{205F}' || c == '\U{3000}'
  }

  predicate AllWhitespace(s: string) {
    forall i :: 0 <= i < |s| ==> IsWhitespace(s[i])
  }

  /** Drops leading whitespace: the result is the suffix of `s` starting at its first
      non-whitespace character. */
  function TrimStart(s: string): (r: string)
    ensures |r| <= |s| && r == s[|s| - |r|..]
    ensures |r| > 0 ==> !IsWhitespace(r[0])
    ensures AllWhitespace(s[..|s| - |r|])
    decreases |s|
  {
    if |s| > 0 && IsWhitespace(s[0]) then TrimStart(s[1..]) else s
  }

  /** Drops trailing whitespace: the result is the prefix of `s` ending at its last
      non-whitespace character. */
  function TrimEnd(s: string): (r: string)
    ensures |r| <= |s| && r == s[..|r|]
    ensures |r| > 0 ==> !IsWhitespace(r[|r| - 1])
    ensures AllWhitespace(s[|r|..])
    decreases |s|
  {
    if |s| > 0 && IsWhitespace(s[|s| - 1]) then TrimEnd(s[..|s| - 1]) else s
  }

  /** `s.trim()`. */
  function Trim(s: string): string {
    TrimEnd(TrimStart(s))
  }

  /** `s.trim() !== ''` exactly when `s` has a character that is not whitespace. */
  lemma TrimEmptyIffBlank(s: string)
    ensures Trim(s) == "" <==> AllWhitespace(s)
  {
    var t := TrimStart(s);
    if !AllWhitespace(s) {
      var i :| 0 <= i < |s| && !IsWhitespace(s[i]);
    }
  }
}

=== FILE: types.dfy ===
/** The records of the tool (types.ts): device status and audit action enums, the device
    record, the audit log entry and the built-in sample devices. */
module Types {
  import opened Optional

  /** `FRTUStatus`: the operational state of a device. */
  datatype FrtuStatus = Online | Initializing | Connecting | Offline

  /** The string value each status member carries, which is what is stored, compared
      against the status filter and written to the report. */
  function StatusName(s: FrtuStatus): string {
    match s
    case Online => "Online"
    case Initializing => "Initializing"
    case Connecting => "Connecting"
    case Offline => "Offline"
  }

  /** `Object.values(FRTUStatus)`, in declaration order (the options of the status menus). */
  const AllStatuses: seq<FrtuStatus> := [Online, Initializing, Connecting, Offline]

  /** Reading a stored status string back (`value as FRTUStatus` from a status menu). Only
      the four names are statuses, and each names exactly one. */
  function StatusFromName(name: string): (r: Option<FrtuStatus>)
    ensures r.Some? ==> StatusName(r.value) == name
    ensures r.None? <==> forall s: FrtuStatus :: StatusName(s) != name
  {
    if name == "Online" then Some(Online)
    else if name == "Initializing" then Some(Initializing)
    else if name == "Connecting" then Some(Connecting)
    else if name == "Offline" then Some(Offline)
    else None
  }

  /** The status enum has exactly the four members, all with distinct values. */
  lemma StatusEnumeration()
    ensures forall s: FrtuStatus :: s in AllStatuses
    ensures forall i, j :: 0 <= i < j < |AllStatuses| ==> StatusName(AllStatuses[i]) != StatusName(AllStatuses[j])
    ensures |AllStatuses| == 4
  {
    forall s: FrtuStatus ensures s in AllStatuses {
      match s
      case Online => assert AllStatuses[0] == s;
      case Initializing => assert AllStatuses[1] == s;
      case Connecting => assert AllStatuses[2] == s;
      case Offline => assert AllStatuses[3] == s;
    }
  }

  /** `ActionType`: the semantic tag of an audit log entry. */
  datatype ActionType = Create | Update | Delete | StatusChange | Test

  /** The (Thai) string value each action member carries. */
  function ActionName(a: ActionType): string {
    match a
    case Create => "เพิ่มอุปกรณ์"
    case Update => "แก้ไขข้อมูล"
    case Delete => "ลบอุปกรณ์"
    case StatusChange => "เปลี่ยนสถานะ"
    case Test => "ทดสอบสัญญาณ"
  }

  const AllActions: seq<ActionType> := [Create, Update, Delete, StatusChange, Test]

  /** The action enum has exactly the five members, all with distinct, non-empty values
      free of double quotes (so they need no escaping in the report). */
  lemma ActionEnumeration()
    ensures forall a: ActionType :: a in AllActions
    ensures forall i, j :: 0 <= i < j < |AllActions| ==> ActionName(AllActions[i]) != ActionName(AllActions[j])
    ensures |AllActions| == 5
    ensures forall a: ActionType :: ActionName(a) != "" && '"' !in ActionName(a)
  {
    forall a: ActionType ensures a in AllActions {
      match a
      case Create => assert AllActions[0] == a;
      case Update => assert AllActions[1] == a;
      case Delete => assert AllActions[2] == a;
      case StatusChange => assert AllActions[3] == a;
      case Test => assert AllActions[4] == a;
    }
  }

  /** An action's value names only that action, so a reader of the value can tell the action. */
  lemma ActionNameNamesOne(a: ActionType, b: ActionType)
    requires ActionName(a) == ActionName(b)
    ensures a == b
  {
    ActionEnumeration();
    assert a in AllActions && b in AllActions;
    var i :| 0 <= i < |AllActions| && AllActions[i] == a;
    var j :| 0 <= j < |AllActions| && AllActions[j] == b;
    assert i == j;
  }

  /** `FRTU`: one physical field device. The three free-text annotation fields are optional
      (`undefined` when never set). */
  datatype Frtu = Frtu(
    id: string,
    serialNumber: string,
    substation: string,
    feeder: string,
    location: string,
    ipAddress: string,
    status: FrtuStatus,
    commandCode: string,
    eventDetails: Option<string>,
    phosData: Option<string>,
    phboData: Option<string>,
    lastMaintenance: string,
    technician: string)

  /** A device has every field the device form marks as required filled in: serial,
      substation, feeder and location (components/DeviceModal.tsx:82-111), the technician
      (line 161) and the last maintenance date (line 177). */
  predicate HasRequiredFields(d: Frtu) {
    && d.serialNumber != "" && d.substation != "" && d.feeder != "" && d.location != ""
    && d.technician != "" && d.lastMaintenance != ""
  }

  /** The device fields a create/update log entry copies, for the spreadsheet mirror. */
  datatype Snapshot = Snapshot(
    substation: string,
    feeder: string,
    location: string,
    eventDetails: Option<string>,
    status: FrtuStatus,
    phosData: Option<string>,
    phboData: Option<string>)

  /** `HistoryLog`: one audit entry. Entries written by a save also carry a snapshot of the
      saved device; delete and status-change entries do not. */
  datatype HistoryLog = HistoryLog(
    id: string,
    frtuId: string,
    frtuSerial: string,
    action: ActionType,
    details: string,
    officerName: string,
    timestamp: string,
    snapshot: Option<Snapshot>)

  /** The ids of a device list, in order. */
  function Ids(devices: seq<Frtu>): (r: seq<string>)
    ensures |r| == |devices|
    ensures forall i :: 0 <= i < |devices| ==> r[i] == devices[i].id
  {
    seq(|devices|, i requires 0 <= i < |devices| => devices[i].id)
  }

  /** No two devices in the list share an id. */
  predicate UniqueIds(devices: seq<Frtu>) {
    forall i, j :: 0 <= i < j < |devices| ==> devices[i].id != devices[j].id
  }

  /** `INITIAL_FRTUS`: the sample devices a fresh store is seeded with. */
  const InitialFrtus: seq<Frtu> := [
    Frtu("1", "FRTU-PEA-001", "สถานีไฟฟ้าเชียงใหม่ 1", "F01", "หน้า รร. ยุพราช",
         "192.168.1.101", Online, "CMD-001", Some("ตรวจสอบประจำปี แบตเตอรี่ปกติ"),
         Some("-"), Some("-"), "2023-10-20", "นายสมชาย ใจดี"),
    Frtu("2", "FRTU-PEA-002", "สถานีไฟฟ้าเชียงใหม่ 1", "F02", "แยกภูคำ",
         "192.168.1.102", Offline, "CMD-002", Some("รอเปลี่ยนอุปกรณ์สื่อสาร"),
         Some("แจ้งซ่อมแล้ว"), Some("-"), "2023-11-05", "นายวิชัย รักงาน"),
    Frtu("3", "FRTU-PEA-003", "สถานีไฟฟ้าแม่ริม", "F05", "หน้า อบต. ดอนแก้ว",
         "192.168.2.15", Initializing, "CMD-003", Some("กำลังปรับปรุงเฟิร์มแวร์"),
         Some("-"), Some("รออนุมัติ"), "2024-05-20", "นายสมศักดิ์ ช่างไฟ")
  ]

  /** The seed: three devices with ids 1, 2, 3 (hence distinct), every required field
      filled, statuses Online, Offline, Initializing in that order. */
  lemma InitialFrtusWellFormed()
    ensures |InitialFrtus| == 3
    ensures Ids(InitialFrtus) == ["1", "2", "3"]
    ensures UniqueIds(InitialFrtus)
    ensures forall d :: d in InitialFrtus ==> HasRequiredFields(d)
    ensures [InitialFrtus[0].status, InitialFrtus[1].status, InitialFrtus[2].status] == [Online, Offline, Initializing]
  {
  }
}
